=== FILE: README.md ===
# openbench core in Dafny

A model of the game core of openbench, a small 2D block game:

- The chunked tile store and its one write path, `set_tile`. A world-pixel coordinate is split into a chunk coordinate and a local tile coordinate. The list of chunks is scanned, and the list and the chunk's own tile list are edited in place.
- The `Chunk`, `Tile` and keyed `World` types that the store is built from.
- The per-tick physics step of an entity against a list of tiles, and the physics mutators (move, stop, jump).
- The validated value objects `Attribute`, `Hitbox` and `Camera`.
- The entity constructors (`Entity`, `NonPlayerEntity`, `Player`), in both the game-side copy and the shared copy.
- The fly-mode `PlayerMovement` controller and the `KeybindManager` that maps pressed keys to named actions.

Source code that changes state is modelled as Dafny classes and methods with `modifies` frames. Each method is proved against a value-level function. The properties are then proved about those functions:

- `set_tile` on a `ChunkList` changes the heap exactly as `TileEdits.Edit` says.
- `Physics.Apply` leaves the entity in the state that `Collisions.Step` computes.
- `KeybindManager.Update` computes `Keybinds.ActiveActions`.

Python exceptions become `Result`/`Outcome` values that carry a `GameError`. Arguments that Python checks at run time are tagged values:

- `Number`: an int, a float or something else.
- `PositionArg`: a tuple, a list or something else.
- `HitboxArg`
- `AttributeArg`

Positions, velocities and sizes are `real`.

Where the code's own comments or names promise more than its statements do, the model follows the statements:

- The physics step commits the candidate position even on a collision, although its comments speak of predicting the new position and of a swept AABB test (src/entities/physics.py:34, 54). Only the velocity is zeroed, and the computed `temp_x`/`temp_y` corrections are never used. So a falling entity sinks into a tile during the step that stops it; `Collisions.StepSinksIntoTile` shows one case.
- `Attribute.__init__` stores the value without any range check, although `set_value` checks the same bounds.
- `Attribute.set_value`, a setter by its name, validates its argument but never stores it (see Findings).

## Model

| member | source | states |
|---|---|---|
| TileEdits.TileOf | src/world/set_tile.py:6-7 | the tile index is the floor of world/16: its 16-pixel span contains the coordinate, for negative ones too |
| TileEdits.Locate | src/world/set_tile.py:6-11 | local coordinates lie in 0..15 and tile = 16 * chunk + local on each axis |
| TileEdits.LocateIsFloor | src/world/set_tile.py:6-11 | any chunk/local pair whose span contains the coordinate is the one chosen (floor, not truncation) |
| TileEdits.LocateMinusOne | src/world/set_tile.py:6-11 | world pixel (-1, -1) goes to chunk (-1, -1), local (15, 15) |
| TileEdits.Edit | src/world/set_tile.py:5-43 | the reference value of the chunk list after one `set_tile`: no chunk and no type leaves it, no chunk with a type appends one new chunk, a found chunk is edited by EditAt; SetThenLookup, ClearThenLookup, LookupElsewhere and EditKeepsWellFormed state its properties |
| TileEdits.EditAt | src/world/set_tile.py:19-35 | the reference value once chunk i is found: clear removes the first matching tile and an emptied chunk, a type retypes the first matching tile or appends a new one; LookupElsewhereInChunk and EditTileCount state its properties |
| TileEdits.Lookup | src/world/set_tile.py:13-23 | what a reader using the same first-match scans finds at a chunk and local place; the round-trip and frame lemmas are stated with it |
| TileEdits.FindChunk | src/world/set_tile.py:13-17 | the index of the first chunk at the position; none iff no chunk is there |
| TileEdits.FindTile | src/world/set_tile.py:18-23 | the index of the first tile at the local coordinate; none iff no tile is there |
| TileEdits.ClearWithoutChunk | src/world/set_tile.py:36-38 | clearing where no chunk exists leaves the list unchanged |
| TileEdits.ClearInChunk | src/world/set_tile.py:24-29 | clearing in a found chunk removes only its first matching tile, and removes the chunk if it becomes empty |
| TileEdits.OverwriteInPlace | src/world/set_tile.py:20-23 | overwriting keeps every tile count and changes only the type of the first matching tile |
| TileEdits.AppendToChunk | src/world/set_tile.py:30-32 | exactly one new tile is appended at the end of the found chunk; the other chunks are unchanged |
| TileEdits.AppendChunk | src/world/set_tile.py:39-43 | with no chunk there, one chunk holding exactly the new tile is appended and existing chunks are untouched |
| TileEdits.SetThenLookup | src/world/set_tile.py:24-43 | after setting a type, a first-match reader finds exactly that type at that place |
| TileEdits.ClearThenLookup | src/world/set_tile.py:24-29 | after clearing a well-formed list, nothing is found at that place |
| TileEdits.LookupElsewhere | src/world/set_tile.py:14-43 | every other place reads the same before and after one edit |
| TileEdits.LookupElsewhereInChunk | src/world/set_tile.py:19-35 | the same, for the edits inside a found chunk |
| TileEdits.LookupElsewhereAppended | src/world/set_tile.py:30-32 | the same, for the appending edit |
| TileEdits.LookupElsewhereOverwritten | src/world/set_tile.py:33-34 | the same, for the overwriting edit |
| TileEdits.LookupElsewhereCleared | src/world/set_tile.py:24-28 | the same, for the removal of a tile and possibly of its chunk |
| TileEdits.SetThenClearNewChunk | src/world/set_tile.py:24-43 | setting and then clearing where no chunk was restores the list |
| TileEdits.SetThenClearNewTile | src/world/set_tile.py:24-35 | setting and then clearing a free cell of a non-empty chunk restores the list |
| TileEdits.SetThenClearRestores | src/world/set_tile.py:24-43 | with no empty chunks and an empty cell, set followed by clear is the identity |
| TileEdits.EditKeepsNoEmptyChunks | src/world/set_tile.py:27-28 | no edit leaves an empty chunk in a list that had none |
| TileEdits.EditKeepsWellFormed | src/world/set_tile.py:14-43 | edits keep one chunk per position, one tile per cell and no empty chunk |
| TileEdits.EditTileCount | src/world/set_tile.py:24-43 | clearing a present tile removes one tile, adding to a free cell adds one, and any other edit adds none |
| TileMutation.SetTile | src/world/set_tile.py:5-43 | the chunk list and the tiles change exactly as Edit says; the returned chunk is the found one, including one just removed, or the new one; the tile is null when clearing, otherwise it holds the type at the local coordinate and is the first tile already at that cell when there is one, or a fresh tile; in the found case the list keeps the same chunk objects unless clearing emptied the chunk, and then exactly that chunk is cut out of the list and is returned with an empty tile list; clearing where no chunk exists keeps the list's objects; setting in a found chunk keeps its tile list when a tile was there and appends the new tile otherwise; every other chunk keeps its tile list and every other tile keeps its type; ownership is kept |
| TileMutation.ScanChunks | src/world/set_tile.py:13-17 | the loop with break finds FindChunk's index |
| TileMutation.ScanTiles | src/world/set_tile.py:18-23 | the loop with break finds FindTile's index |
| TileMutation.EditChunk | src/world/set_tile.py:19-35 | the values change as EditAt says; setting returns the first tile at the cell or a fresh one and keeps the list's objects; a chunk that leaves the list was emptied by clearing and was cut out at its index, and otherwise the list keeps its objects; on setting, the chunk's tile list is kept or gains the fresh tile at the end; other chunks keep their tile lists and no tile but the returned one changes type |
| TileMutation.ClearFound | src/world/set_tile.py:24-29 | the values change as EditAt's clear says; with no tile at the cell the list and the chunk keep their objects; otherwise the chunk's list loses exactly the found tile, and if it is then empty the chunk is cut out of the list at its index, else the list keeps its objects |
| TileMutation.ClearTile | src/world/set_tile.py:25-28 | the chunk's list loses exactly tile j; if it is then empty, the chunk is cut out of the list at index i and no longer in it, otherwise the list keeps its objects; the values change accordingly |
| TileMutation.CutTile | src/world/set_tile.py:26 | `tiles.remove(tile)` removes exactly that tile's position |
| TileMutation.DropChunk | src/world/set_tile.py:28 | `chunks.remove(chunk)` cuts exactly index i out of the list, after which the chunk is no longer in it |
| TileMutation.RemoveFirstAt | src/world/set_tile.py:26-28 | `list.remove` of an element first seen at i cuts out index i |
| TileMutation.PutTile | src/world/set_tile.py:30-35 | set a type in a found chunk: with no tile at the cell a fresh tile is appended to the chunk's list, otherwise the list is kept and the found tile is retyped; no other tile's type changes; the values change as EditAt says |
| TileMutation.AppendTile | src/world/set_tile.py:31-32 | the chunk's tile list grows by exactly the new tile |
| TileMutation.OverwriteTile | src/world/set_tile.py:34 | only the found tile's type changes |
| TileMutation.AddChunk | src/world/set_tile.py:40-43 | a fresh chunk holding one fresh tile is appended |
| TileMutation.PushChunk | src/world/set_tile.py:42 | `chunks.append` appends exactly the new chunk |
| Tiles.Tile.constructor | src/common/world/tile.py:5-9 | fields stored as given, with no check; an absent block state becomes an empty map |
| Chunks.Chunk.New | src/world/chunk.py:9-16 | fails with InvalidChunkData iff the tile list is empty; otherwise position and tiles are stored as given and the id is computed once |
| Chunks.Chunk.Init | src/world/chunk.py:14-16 | field initialisation; `chunkIdString == ChunkId(position)` |
| Chunks.ChunkId | src/world/chunk.py:16 | the `"x.y"` identifier holds exactly one dot; ChunkIdInjective shows that it determines the position |
| Chunks.NatToStringDigits | src/world/chunk.py:16 | the decimal rendering is all digits and reads back as the number |
| Chunks.IntToStringInjective | src/world/chunk.py:16 | distinct integers render differently, and never with a dot |
| Chunks.ChunkIdInjective | src/world/chunk.py:16 | distinct positions have distinct `"x.y"` ids |
| Chunks.ChunkIdExample | src/world/chunk.py:16 | position (-1, 15) has id "-1.15" |
| Worlds.World.constructor | src/common/world/world.py:9-11 | an absent chunk map becomes empty; the spawn location is stored |
| Worlds.World.Default | src/common/world/world.py:9 | defaults: no chunks, spawn (0, 0) |
| Worlds.World.AddChunk | src/common/world/world.py:13-15 | the map becomes Added: a present id is kept, a new id is inserted, all else unchanged |
| Worlds.World.GetChunk | src/common/world/world.py:17-18 | the stored chunk iff the id is present |
| Worlds.World.RemoveChunk | src/common/world/world.py:20-22 | the map becomes Removed: the id is gone, everything else kept |
| Worlds.Added | src/common/world/world.py:13-15 | keys gain the id; old entries are kept; a new id maps to the chunk |
| Worlds.Removed | src/common/world/world.py:20-22 | the keys lose the id and every remaining entry is kept |
| Worlds.Get | src/common/world/world.py:17-18 | a value iff the id is present, and then the stored one |
| Worlds.AddFirstWriterWins | src/common/world/world.py:13-15 | a second add under the same id changes nothing |
| Worlds.GetAfterAdd | src/common/world/world.py:13-18 | reading back after an add gives the first chunk stored under the id; other ids are unaffected |
| Worlds.RemoveIdempotent | src/common/world/world.py:20-22 | removing twice is removing once, and the id then reads as absent |
| Worlds.RemoveUndoesAdd | src/common/world/world.py:13-22 | adding a new id and removing it restores the map |
| Collisions.FirstOverlap | src/entities/physics.py:59-77 | the first tile whose box strictly overlaps; none iff no tile does |
| Collisions.Step | src/entities/physics.py:20-104 | the reference state after one `apply(dt)`; StepCommitsCandidate, StepWithoutHitbox and StepWithHitbox state its properties |
| Collisions.StepCommitsCandidate | src/entities/physics.py:22-38 | gravity is added first, and the position is always orig + v*dt: there is no correction |
| Collisions.StepWithoutHitbox | src/entities/physics.py:25-32 | without a hitbox only gravity acts on the velocity, and on_ground is untouched |
| Collisions.StepWithHitbox | src/entities/physics.py:54-104 | blocked means both velocity components become 0, unblocked keeps them; on_ground iff blocked while moving down |
| Collisions.TouchingIsNotOverlap | src/entities/physics.py:65-70 | an entity box that only shares an edge with a tile does not collide with it, on each of the four sides and at any offset along that side |
| Collisions.StepSinksIntoTile | src/entities/physics.py:20-104 | a 1x2 entity at rest above a tile moves into it, stops, and is marked on the ground |
| Entities.ScanTiles | src/entities/physics.py:60-77 | the scan loop with break reports a hit iff FirstOverlap finds one |
| Entities.Physics.constructor | src/entities/physics.py:9-11 | stores the entity and the tile list |
| Entities.Physics.Apply | src/entities/physics.py:20-104 | the entity's position, velocity and ground flag become Step of the old state with the entity's hitbox, the tiles and the gravity attribute |
| Entities.Physics.MoveLeft | src/entities/physics.py:110-111 | horizontal velocity becomes minus the move speed; vertical is kept |
| Entities.Physics.MoveRight | src/entities/physics.py:113-114 | horizontal velocity becomes the move speed; vertical is kept |
| Entities.Physics.StopHorizontal | src/entities/physics.py:116-117 | horizontal velocity becomes 0; vertical is kept |
| Entities.Physics.Jump | src/entities/physics.py:119-122 | only on the ground: vertical velocity becomes minus the jump height and the flag clears; otherwise nothing changes |
| Entities.Physics.GetAttr | src/entities/physics.py:13-18 | the stored attribute's value under the key, else the default; DefaultTunables and StoredTunable state both cases |
| Entities.DefaultTunables | src/entities/physics.py:13-18 | with no attributes, gravity is 0.5, move speed 5.0 and jump height 10.0 |
| Entities.StoredTunable | src/entities/physics.py:13-18 | a stored attribute overrides any default |
| Attributes.Attribute.New | src/atrribute.py:8-22 | fails with InvalidAttribute iff the id is empty or the value is not a float; otherwise stores it without a range check, with bounds -1e10 and 1e10 |
| Attributes.Attribute.Init | src/atrribute.py:19-22 | field initialisation with the fixed bounds |
| Attributes.Attribute.SetValue | src/atrribute.py:24-35 | passes iff the value is a float within the bounds; it changes nothing, since it has no frame |
| Attributes.Attribute.SetValueStored | src/atrribute.py:24-35 | the same checks; on success the value is stored and lies within the bounds, and on failure it is kept |
| Attributes.SetValueDropsWrite | src/atrribute.py:24-35 | an accepted write of 2.0 leaves 1.0 in place |
| Attributes.SetValueStoredKeepsWrite | src/atrribute.py:24-35 | with the corrected setter the same write is kept |
| Hitboxes.Hitbox.New | src/entities/hitbox.py:8-18 | fails with InvalidHitboxData iff a dimension is not positive; otherwise valid, with derived area, perimeter and centre |
| Hitboxes.Hitbox.Init | src/entities/hitbox.py:14-18 | field initialisation; the derived fields are consistent |
| Hitboxes.Hitbox.Resize | src/entities/hitbox.py:23-32 | fails iff a dimension is not positive, and then changes nothing; otherwise sets all five fields consistently; validity is preserved |
| Hitboxes.Hitbox.ContainsPoint | src/entities/hitbox.py:20-21 | a point can be contained only when neither dimension is negative; ContainsCornersAndCenter states which points are contained |
| Hitboxes.ContainsCornersAndCenter | src/entities/hitbox.py:20-21 | the closed box contains its corners and centre and nothing outside [0,w]x[0,h] |
| Hitboxes.DerivedPositive | src/entities/hitbox.py:16-18 | positive dimensions give a positive area and perimeter and an interior centre |
| Cameras.Camera.New | src/camera.py:8-27 | fails with InvalidCameraData iff the position is not a 2-tuple, the orientation is not a number or the zoom is not a positive number; otherwise stores them |
| Cameras.Camera.Default | src/camera.py:8 | defaults (0, 0), 0 and 1.0 |
| Cameras.Camera.Init | src/camera.py:25-27 | field initialisation; zoom is positive |
| Cameras.Camera.Move | src/camera.py:29-32 | position shifts by (dx, dy); nothing else changes |
| Cameras.Camera.Rotate | src/camera.py:37-39 | orientation grows by the angle; nothing else changes |
| Cameras.Camera.SetZoom | src/camera.py:44-48 | fails iff not a positive number, keeping the zoom; otherwise the zoom is set; zoom > 0 is preserved |
| Cameras.CameraArguments | src/camera.py:9-23 | a list, a 3-tuple or a non-positive zoom is refused; the defaults and int arguments are accepted |
| EntityRules.EntityError | src/entities/entity.py:19-60 | no error iff uuid and texture are non-empty, the hitbox is a Hitbox or absent, the position has two elements and every attribute is an Attribute; the error is InvalidEntityData |
| EntityRules.NonPlayerError | src/entities/npe.py:19-35 | an empty or non-'#' uuid fails with InvalidNonPlayerEntityData before the base checks; otherwise the base result |
| EntityRules.PlayerError | src/entities/player.py:18-30 | an empty uuid or username fails with InvalidPlayerData; then only the position and the attributes can fail |
| EntityRules.StoredAttributes | src/entities/entity.py:60 | absent attributes become an empty map; present ones are stored key by key |
| EntityRules.CheckAttributes | src/entities/entity.py:51-60 | the loop succeeds iff every entry is an Attribute, with the stored map |
| EntityRules.NonPlayerCheckOrder | src/entities/npe.py:27-35 | a '#' uuid with an empty texture fails in the base class; "a" fails first; "#" alone is accepted |
| EntityRules.NonPlayerAccepts | src/entities/npe.py:19-35 | a non-player is accepted iff its uuid starts with '#' and the base checks pass |
| Entities.Entity.Construct | src/entities/entity.py:19-67 | fails iff EntityError reports one; otherwise a fresh entity stores the arguments, at rest, off the ground, without physics |
| Entities.Entity.New | src/entities/entity.py:11-67 | Entity(...) is Construct with the base kind |
| Entities.Entity.NewNonPlayer | src/entities/npe.py:11-35 | fails exactly with NonPlayerError's error; otherwise it is the base construction |
| Entities.Entity.NewPlayer | src/entities/player.py:11-32 | fails exactly with PlayerError's error; otherwise the player texture, a fresh valid 1.0 x 2.0 hitbox, the username, at rest |
| Entities.Entity.Init | src/entities/entity.py:25-67 | field initialisation with velocity (0, 0), off the ground, no physics |
| CommonEntities.Entity.Construct | src/common/entities/entity.py:18-59 | fails iff EntityError reports one; otherwise a fresh entity stores the arguments |
| CommonEntities.Entity.New | src/common/entities/entity.py:10-59 | Entity(...) is Construct with the base kind |
| CommonEntities.Entity.NewNonPlayer | src/common/entities/npe.py:11-35 | fails exactly with NonPlayerError's error; otherwise it is the base construction |
| CommonEntities.Entity.NewPlayer | src/common/entities/player.py:11-35 | fails exactly with PlayerError's error; otherwise the player texture, a 1.0 x 2.0 hitbox, the username, mode "default" and both flight flags false |
| CommonEntities.Entity.Init | src/common/entities/entity.py:24-59 | field initialisation |
| Movement.PlayerMovement.Update | src/entities/movement.py:7-22 | the velocity becomes FlyVelocity of the active actions, whatever it was; the position moves by it; the player is off the ground |
| Movement.PlayerMovement.constructor | src/entities/movement.py:2-4 | stores the player and the manager |
| Movement.FlyVelocity | src/entities/movement.py:7-17 | each velocity component is -8, 0 or +8 |
| Movement.FlyVelocityCases | src/entities/movement.py:7-16 | -8, +8 or 0 on each axis, depending on which of the two opposite actions is active |
| Movement.FlyVelocityIgnoresOthers | src/entities/movement.py:9-16 | actions other than the four directions have no effect |
| Keybinds.AnyPressed | src/keybinds.py:18 | true iff some bound key is pressed |
| Keybinds.ActiveActions | src/keybinds.py:15-19 | only bound actions are active; ActiveIff gives both directions |
| Keybinds.KeybindManager.constructor | src/keybinds.py:5-11 | stores the bindings; no action is active |
| Keybinds.KeybindManager.Update | src/keybinds.py:13-19 | active becomes ActiveActions of the bindings and the pressed keys, whatever it held before |
| Keybinds.KeybindManager.IsActive | src/keybinds.py:21-22 | membership in the active set, which Update has made ActiveActions |
| Keybinds.KeybindManager.GetActiveActions | src/keybinds.py:21-25 | the returned set holds exactly the actions for which is_active holds |
| Keybinds.KeybindManager.FromSettings | src/keybinds.py:27-46 | a fresh manager with the bindings of BindingsFromSettings and nothing active |
| Keybinds.FilterKeyNames | src/keybinds.py:45 | no longer than its input, and only known key codes |
| Keybinds.BindingsFromSettings | src/keybinds.py:43-46 | a missing entry gives no bindings; otherwise every listed action is bound |
| Keybinds.ActiveIff | src/keybinds.py:15-19 | an action is active iff it is bound and one of its keys is pressed |
| Keybinds.UnboundNeverActive | src/keybinds.py:17-19 | an action with no keys, or not bound at all, is never active |
| Keybinds.ActiveMonotone | src/keybinds.py:17-19 | pressing more keys never deactivates an action |
| Keybinds.KeyMapInjective | src/keybinds.py:32-42 | no two key names share a code |
| Keybinds.FilterKeyNamesAppend | src/keybinds.py:45 | filtering keeps order: it distributes over concatenation |
| Keybinds.FilterKeyNamesMembership | src/keybinds.py:45 | a code is kept iff some listed known name stands for it |
| Keybinds.FilterKeyNamesExample | src/keybinds.py:45 | unknown names are dropped and the others keep their order |
| Keybinds.SettingsActive | src/keybinds.py:27-46 | after from_settings and update, an action is active iff the settings list a known name for it whose key is pressed |

## Left out

- Logging: every `logger` call is dropped. Raised exceptions become `Failure`/`Fail` results that carry the error kind; the message text is not modelled.
- Floating point: positions, velocities, sizes, dt and camera values are exact `real`s, so IEEE rounding is not modelled.
- The pressed-key state from `pygame.key.get_pressed` is a parameter of `KeybindManager.Update`, given as the set of pressed key codes. The pygame key constants are written out as the integers they stand for.
- `KeybindManager.FromSettings` receives only the `"keybinds"` entry of the settings (absent = `None`). The rest of the settings dictionary and the settings file loader are not modelled.
- Python's run-time type checks on strings and booleans are implied by Dafny's static types. Only the distinctions that matter are kept as tagged arguments: int vs float vs other, tuple vs list, Hitbox or not, Attribute or not.
- Entities.Entity.Construct: positions are stored as a pair of reals, so the model does not record whether the caller passed a tuple or a list.
- Entities.Physics.Apply: the entity's velocity is a pair value, not a shared mutable list. Aliasing of that list by other holders is not modelled.
- Entities.Physics.Apply: both scans skip tiles whose `x` or `y` is `None` (the first reads them through `getattr`, the second directly). Tiles here always have integer coordinates, so that skip cannot happen in the model.
- Entities.Physics.Apply: the `temp_x`/`temp_y` values computed on a collision are never used, so the model does not compute them.
- Entities.ScanTiles stands for both scan loops of `apply`. They test the same box against the same tiles, and each one only sets its own flag and axis velocity.
- TileMutation.SetTile: its `requires chunks.Valid()` asks for distinct chunk objects and for no tile object shared between chunks or listed twice. Python accepts any list; with such sharing an overwrite or removal would show up in more than one place, and the model does not describe that case. Chunks built by `Chunk(...)` with fresh tiles, as the game builds them, always meet it.
- Cameras.Camera.Move and Cameras.Camera.Rotate: the `try`/`except` that turns a failing addition into `InvalidCameraDataError` is not modelled. Positions, offsets and angles are reals here, so the addition cannot fail. In Python, `Camera(("a", "b"))` passes the constructor, which checks only that the position is a 2-tuple, and a later `move(1, 1)` raises `InvalidCameraDataError`; so does `rotate("a")`.
- Worlds.World.constructor and Chunks.Chunk.Init: Python stores the caller's dictionary and list themselves, so a later `add_chunk`, `remove_chunk` or `set_tile` also changes the object the caller still holds. The model's `map` and `seq` fields are values, so that aliasing is not captured.
- Attributes.Attribute.SetValue: it keeps the object unchanged by having no frame; no separate clause restates that.
- src/common/world/chunk.py, src/common/entities/hitbox.py, src/common/atrribute.py and src/world/tile.py are not part of this model. `World` stores the `Chunk` of src/world/chunk.py. Both entity copies use the `Hitbox` of src/entities/hitbox.py and the `Attribute` of src/atrribute.py. In place of src/world/tile.py, which `set_tile` imports, the model gives `set_tile` the `Tile` of src/common/world/tile.py.
- Default argument values of the Python constructors are not modelled; callers pass every argument. `Cameras.Camera.Default` and `Worlds.World.Default` state the defaults of the two classes that are built without arguments.
- Rendering, asset loading, the main loop, the settings file and the error classes are outside the core.

## Findings

| source | as written | input that shows it | evidently intended | confidence | as-written member | corrected member |
|---|---|---|---|---|---|---|
| src/atrribute.py:24-35 | `set_value` checks the type and the range of the new value and then returns without assigning it | an attribute created with 1.0, then `set_value(2.0)`: the call succeeds and the value is still 1.0 | store the accepted value (`self.value = new_value`) | not executed | Attributes.SetValueDropsWrite | Attributes.SetValueStoredKeepsWrite |

=== FILE: attribute.dfy ===
/** The validated attribute of src/atrribute.py. */
module Attributes {
  import opened Wrappers
  import opened Errors
  import opened Values

  /** `-(10.0 ** 10.0)` and `10.0 ** 10.0`. */
  const MinValue: real := -10000000000.0
  const MaxValue: real := 10000000000.0

  /** Whether `set_value` accepts `v`: a float within the closed range [lo, hi]. */
  predicate Acceptable(v: Number, lo: real, hi: real)
  {
    v.FloatValue? && lo <= v.f <= hi
  }

  class Attribute {
    var id: string
    var value: real
    var minValue: real
    var maxValue: real

    /** Field initialisation once id and value have been checked; the value is not range-checked. */
    constructor Init(id: string, value: real)
      requires id != []
      ensures this.id == id && this.value == value
      ensures minValue == MinValue && maxValue == MaxValue
    {
      this.id := id;
      this.value := value;
      minValue := MinValue;
      maxValue := MaxValue;
    }

    /** `Attribute(id, value)`: an empty id or a value that is not a float fails. */
    static method New(id: string, value: Number) returns (r: Result<Attribute, GameError>)
      ensures r.Failure? <==> id == [] || !value.FloatValue?
      ensures r.Failure? ==> r.error == InvalidAttribute
      ensures r.Success? ==> fresh(r.value) && r.value.id == id && r.value.value == value.f
      ensures r.Success? ==> r.value.minValue == MinValue && r.value.maxValue == MaxValue
    {
      if id == [] {
        return Failure(InvalidAttribute);
      }
      if !value.FloatValue? {
        return Failure(InvalidAttribute);
      }
      var a := new Attribute.Init(id, value.f);
      return Success(a);
    }

    /**
     * `set_value` as written: it rejects a non-float or out-of-range value and otherwise
     * returns normally, but never stores anything (no frame: the object is unchanged).
     */
    method SetValue(newValue: Number) returns (r: Outcome<GameError>)
      ensures r.Pass? <==> Acceptable(newValue, minValue, maxValue)
      ensures r.Fail? ==> r.error == InvalidAttribute
    {
      if !newValue.FloatValue? {
        return Fail(InvalidAttribute);
      }
      if !(minValue <= newValue.f <= maxValue) {
        return Fail(InvalidAttribute);
      }
      return Pass;
    }

    /** `set_value` as evidently intended: the same checks, then the accepted value is stored. */
    method SetValueStored(newValue: Number) returns (r: Outcome<GameError>)
      modifies this`value
      ensures r.Pass? <==> Acceptable(newValue, minValue, maxValue)
      ensures r.Fail? ==> r.error == InvalidAttribute && value == old(value)
      ensures r.Pass? ==> value == newValue.f && minValue <= value <= maxValue
    {
      r := SetValue(newValue);
      if r.Pass? {
        value := newValue.f;
      }
    }
  }

  /**
   * The as-written `set_value` drops the write: an attribute created with 1.0 accepts 2.0
   * and still holds 1.0 afterwards.
   */
  method SetValueDropsWrite() returns (r: Outcome<GameError>, after: real)
    ensures r.Pass? && after == 1.0
  {
    var created := Attribute.New("speed", FloatValue(1.0));
    var a := created.value;
    r := a.SetValue(FloatValue(2.0));
    after := a.value;
  }

  /** With the corrected setter the same call leaves 2.0 in place. */
  method SetValueStoredKeepsWrite() returns (r: Outcome<GameError>, after: real)
    ensures r.Pass? && after == 2.0
  {
    var created := Attribute.New("speed", FloatValue(1.0));
    var a := created.value;
    r := a.SetValueStored(FloatValue(2.0));
    after := a.value;
  }
}

=== FILE: camera.dfy ===
/** The view camera of src/camera.py. */
module Cameras {
  import opened Wrappers
  import opened Errors
  import opened Values

  /** The checks of `Camera.__init__`, in order; the error kind is the same for all three. */
  predicate AcceptedCamera(position: PositionArg, orientation: Number, zoom: Number)
  {
    && position.TupleArg? && |position.items| == 2
    && !orientation.NonNumeric?
    && !zoom.NonNumeric? && NumericValue(zoom) > 0.0
  }

  class Camera {
    var position: (real, real)
    /** An angle in degrees. */
    var orientation: real
    var zoom: real

    ghost predicate Valid()
      reads this
    {
      zoom > 0.0
    }

    /** `Camera()`: position (0, 0), orientation 0, zoom 1.0. */
    constructor Default()
      ensures position == (0.0, 0.0) && orientation == 0.0 && zoom == 1.0
      ensures Valid()
    {
      position := (0.0, 0.0);
      orientation := 0.0;
      zoom := 1.0;
    }

    /** Field initialisation once the arguments have been checked. */
    constructor Init(position: (real, real), orientation: real, zoom: real)
      requires zoom > 0.0
      ensures this.position == position && this.orientation == orientation && this.zoom == zoom
      ensures Valid()
    {
      this.position := position;
      this.orientation := orientation;
      this.zoom := zoom;
    }

    /**
     * `Camera(position, orientation, zoom)`: fails unless the position is a 2-tuple, the
     * orientation is a number and the zoom is a positive number.
     */
    static method New(position: PositionArg, orientation: Number, zoom: Number)
      returns (r: Result<Camera, GameError>)
      ensures r.Failure? <==> !AcceptedCamera(position, orientation, zoom)
      ensures r.Failure? ==> r.error == InvalidCameraData
      ensures r.Success? ==>
        && fresh(r.value) && r.value.Valid()
        && r.value.position == (position.items[0], position.items[1])
        && r.value.orientation == NumericValue(orientation)
        && r.value.zoom == NumericValue(zoom)
    {
      if !(position.TupleArg? && |position.items| == 2) {
        return Failure(InvalidCameraData);
      }
      if orientation.NonNumeric? {
        return Failure(InvalidCameraData);
      }
      if !(!zoom.NonNumeric? && NumericValue(zoom) > 0.0) {
        return Failure(InvalidCameraData);
      }
      var c := new Camera.Init((position.items[0], position.items[1]), NumericValue(orientation), NumericValue(zoom));
      return Success(c);
    }

    /** `move(dx, dy)`: shifts the position only. */
    method Move(dx: real, dy: real)
      modifies this`position
      ensures position == (old(position.0) + dx, old(position.1) + dy)
    {
      var (x, y) := position;
      position := (x + dx, y + dy);
    }

    /** `rotate(dangle)`: adds to the orientation only. */
    method Rotate(dangle: real)
      modifies this`orientation
      ensures orientation == old(orientation) + dangle
    {
      orientation := orientation + dangle;
    }

    /** `set_zoom(zoom)`: a zoom that is not a positive number fails and leaves the zoom as it was. */
    method SetZoom(zoom: Number) returns (r: Outcome<GameError>)
      modifies this`zoom
      ensures r.Fail? <==> zoom.NonNumeric? || NumericValue(zoom) <= 0.0
      ensures r.Fail? ==> r.error == InvalidCameraData && this.zoom == old(this.zoom)
      ensures r.Pass? ==> this.zoom == NumericValue(zoom)
      ensures old(Valid()) ==> Valid()
    {
      if !(!zoom.NonNumeric? && NumericValue(zoom) > 0.0) {
        return Fail(InvalidCameraData);
      }
      this.zoom := NumericValue(zoom);
      return Pass;
    }
  }

  /** A list, a 3-tuple or a non-positive zoom is refused; the defaults are accepted. */
  lemma CameraArguments(z: real)
    ensures !AcceptedCamera(ListArg([0.0, 0.0]), IntValue(0), FloatValue(1.0))
    ensures !AcceptedCamera(TupleArg([0.0, 0.0, 0.0]), IntValue(0), FloatValue(1.0))
    ensures z <= 0.0 ==> !AcceptedCamera(TupleArg([0.0, 0.0]), IntValue(0), FloatValue(z))
    ensures AcceptedCamera(TupleArg([0.0, 0.0]), IntValue(0), FloatValue(1.0))
    ensures AcceptedCamera(TupleArg([0.0, 0.0]), FloatValue(90.0), IntValue(2))
  {
  }
}

=== FILE: chunk.dfy ===
/** The chunk of src/world/chunk.py and its `"x.y"` identifier. */
module Chunks {
  import opened Wrappers
  import opened Errors
  import opened Tiles

  /** The state of one chunk object and of the tiles it holds. */
  datatype ChunkValue = ChunkValue(position: (int, int), tiles: seq<TileValue>)

  class Chunk {
    var position: (int, int)
    var tiles: seq<Tile>
    /** Computed once at construction; later changes to `position` do not update it. */
    var chunkIdString: string

    /** Field initialisation once the tile list is known to be non-empty. */
    constructor Init(position: (int, int), tiles: seq<Tile>)
      requires tiles != []
      ensures this.position == position && this.tiles == tiles
      ensures chunkIdString == ChunkId(position)
    {
      this.position := position;
      this.tiles := tiles;
      this.chunkIdString := ChunkId(position);
    }

    /** `Chunk(position, tiles)`: fails on an empty tile list, else stores both as given. */
    static method New(position: (int, int), tiles: seq<Tile>) returns (r: Result<Chunk, GameError>)
      ensures r.Failure? <==> tiles == []
      ensures r.Failure? ==> r.error == InvalidChunkData
      ensures r.Success? ==> fresh(r.value) && r.value.position == position && r.value.tiles == tiles
      ensures r.Success? ==> r.value.chunkIdString == ChunkId(position)
    {
      if tiles == [] {
        return Failure(InvalidChunkData);
      }
      var c := new Chunk.Init(position, tiles);
      return Success(c);
    }

    ghost function Value(): (r: ChunkValue)
      reads this, tiles
    {
      ChunkValue(position, Values(tiles))
    }
  }

  /** The decimal digit character for 0 <= d < 10. */
  function Digit(d: int): (c: char)
    requires 0 <= d < 10
    ensures '0' <= c <= '9' && c as int - '0' as int == d
  {
    ('0' as int + d) as char
  }

  /** Python's `str(n)` for a natural number: decimal digits, no sign, no leading zero. */
  function NatToString(n: nat): (s: string)
    decreases n
  {
    if n < 10 then [Digit(n)] else NatToString(n / 10) + [Digit(n % 10)]
  }

  /** Python's `str(i)` for an integer: a minus sign before the digits of a negative number. */
  function IntToString(i: int): string
  {
    if i < 0 then "-" + NatToString(-i) else NatToString(i)
  }

  /** The identifier `f"{position[0]}.{position[1]}"`: it holds exactly one dot, between the two coordinates. */
  function ChunkId(p: (int, int)): (r: string)
    ensures multiset(r)['.'] == 1
  {
    IntToStringInjective(p.0, p.0);
    IntToStringInjective(p.1, p.1);
    IntToString(p.0) + "." + IntToString(p.1)
  }

  predicate AllDigits(s: string)
  {
    forall k :: 0 <= k < |s| ==> '0' <= s[k] <= '9'
  }

  /** Reads a string of decimal digits back as a number. */
  function DigitsValue(s: string): nat
    requires AllDigits(s)
  {
    if s == [] then 0 else 10 * DigitsValue(s[..|s| - 1]) + (s[|s| - 1] as int - '0' as int)
  }

  lemma {:induction false} NatToStringDigits(n: nat)
    ensures |NatToString(n)| > 0 && AllDigits(NatToString(n))
    ensures DigitsValue(NatToString(n)) == n
    decreases n
  {
    if n >= 10 {
      NatToStringDigits(n / 10);
      var s := NatToString(n);
      assert s[..|s| - 1] == NatToString(n / 10);
    }
  }

  lemma {:induction false} NatToStringInjective(m: nat, n: nat)
    requires NatToString(m) == NatToString(n)
    ensures m == n
  {
    NatToStringDigits(m);
    NatToStringDigits(n);
  }

  /** Distinct integers have distinct decimal strings, and none of them contains a dot. */
  lemma {:induction false} IntToStringInjective(i: int, j: int)
    ensures '.' !in IntToString(i)
    ensures IntToString(i) == IntToString(j) ==> i == j
  {
    NatToStringDigits(if i < 0 then -i else i);
    NatToStringDigits(if j < 0 then -j else j);
    var a, b := IntToString(i), IntToString(j);
    assert (a[0] == '-') == (i < 0);
    assert (b[0] == '-') == (j < 0);
    if a == b {
      if i < 0 {
        assert a[1..] == NatToString(-i) && b[1..] == NatToString(-j);
        NatToStringInjective(-i, -j);
      } else {
        NatToStringInjective(i, j);
      }
    }
    if i < 0 {
      assert a == "-" + NatToString(-i);
      forall k | 0 <= k < |a| ensures a[k] != '.' {
        if k > 0 { assert a[k] == NatToString(-i)[k - 1]; }
      }
    }
  }

  /** Joining two dot-free strings with a dot can be undone: the first dot marks the split. */
  lemma {:induction false} DotJoinCancels(a: string, b: string, c: string, d: string)
    requires '.' !in a && '.' !in c
    requires a + "." + b == c + "." + d
    ensures a == c && b == d
  {
    var s := a + "." + b;
    assert forall k :: 0 <= k < |a| ==> s[k] == a[k] != '.';
    assert forall k :: 0 <= k < |c| ==> s[k] == c[k] != '.';
    assert s[|a|] == '.' && s[|c|] == '.';
    assert |a| == |c|;
    assert a == s[..|a|] == c;
    assert b == s[|a| + 1..] == d;
  }

  /** Different chunk positions never share an identifier (negative coordinates included). */
  lemma ChunkIdInjective(p: (int, int), q: (int, int))
    requires ChunkId(p) == ChunkId(q)
    ensures p == q
  {
    IntToStringInjective(p.0, q.0);
    IntToStringInjective(q.0, p.0);
    IntToStringInjective(p.1, q.1);
    DotJoinCancels(IntToString(p.0), IntToString(p.1), IntToString(q.0), IntToString(q.1));
  }

  /** A concrete identifier: position (-1, 15) is named "-1.15". */
  lemma ChunkIdExample()
    ensures ChunkId((-1, 15)) == "-1.15"
  {
  }
}

=== FILE: collision.dfy ===
/**
 * The per-tick physics step of src/entities/physics.py as a function of values: boxes,
 * the strict overlap test, the first-hit scan and the state an `apply(dt)` call produces.
 */
module Collisions {
  import opened Wrappers

  /** An axis-aligned box: left and top edges, right and bottom edges (y grows downwards). */
  datatype Box = Box(left: real, top: real, right: real, bottom: real)

  /** The entity's box at (x, y) for a hitbox of the given size. */
  function EntityBox(x: real, y: real, width: real, height: real): Box
  {
    Box(x, y, x + width, y + height)
  }

  /** A tile's unit box [tx, tx+1] x [ty, ty+1]. */
  function TileBox(t: (int, int)): Box
  {
    Box(t.0 as real, t.1 as real, (t.0 + 1) as real, (t.1 + 1) as real)
  }

  /** The overlap test of the scans: strict on all four sides. */
  predicate Overlaps(a: Box, b: Box)
  {
    a.left < b.right && a.right > b.left && a.top < b.bottom && a.bottom > b.top
  }

  /** The index at which a scan over `tiles` stops: the first tile whose box overlaps `box`. */
  function FirstOverlap(box: Box, tiles: seq<(int, int)>): (r: Option<nat>)
    ensures r.Some? ==> r.value < |tiles| && Overlaps(box, TileBox(tiles[r.value]))
    ensures r.Some? ==> forall k :: 0 <= k < r.value ==> !Overlaps(box, TileBox(tiles[k]))
    ensures r.None? <==> forall k :: 0 <= k < |tiles| ==> !Overlaps(box, TileBox(tiles[k]))
  {
    if tiles == [] then None
    else if Overlaps(box, TileBox(tiles[0])) then Some(0)
    else
      match FirstOverlap(box, tiles[1..])
      case None => None
      case Some(k) => Some(k + 1)
  }

  /** A quantity after `dt` time units of change at `rate`: positions under velocity, velocity under gravity. */
  function Advance(q: real, rate: real, dt: real): real
  {
    q + rate * dt
  }

  /** The physics state of an entity: position, velocity and the ground flag. */
  datatype Body = Body(position: (real, real), velocity: (real, real), onGround: bool)

  /**
   * One `apply(dt)`: gravity first, then the candidate position; with a hitbox, two scans of
   * the same candidate box each zero their axis on a hit, and the candidate is committed.
   */
  function Step(b: Body, hitbox: Option<(real, real)>, tiles: seq<(int, int)>, gravity: real, dt: real): Body
  {
    var vx := b.velocity.0;
    var vy := Advance(b.velocity.1, gravity, dt);
    var newX := Advance(b.position.0, vx, dt);
    var newY := Advance(b.position.1, vy, dt);
    if hitbox.None? then
      Body((newX, newY), (vx, vy), b.onGround)
    else
      var box := EntityBox(newX, newY, hitbox.value.0, hitbox.value.1);
      var collidedX := FirstOverlap(box, tiles).Some?;
      var collidedY := FirstOverlap(box, tiles).Some?;
      var vx' := if collidedX then 0.0 else vx;
      var vy' := if collidedY then 0.0 else vy;
      Body((newX, newY), (vx', vy'), collidedY && vy' == 0.0 && b.position.1 < newY)
  }

  /** Whether some tile overlaps the box of a hitbox placed at `p`. */
  predicate Blocked(p: (real, real), hitbox: (real, real), tiles: seq<(int, int)>)
  {
    exists k :: 0 <= k < |tiles| && Overlaps(EntityBox(p.0, p.1, hitbox.0, hitbox.1), TileBox(tiles[k]))
  }

  /** Gravity is added first, and the candidate position is always committed: there is no correction. */
  lemma StepCommitsCandidate(b: Body, hitbox: Option<(real, real)>, tiles: seq<(int, int)>, gravity: real, dt: real)
    ensures var r := Step(b, hitbox, tiles, gravity, dt);
      var vy := b.velocity.1 + gravity * dt;
      r.position.0 == b.position.0 + b.velocity.0 * dt && r.position.1 == b.position.1 + vy * dt
  {
  }

  /** Without a hitbox only gravity acts on the velocity, and the ground flag is left alone. */
  lemma StepWithoutHitbox(b: Body, tiles: seq<(int, int)>, gravity: real, dt: real)
    ensures var r := Step(b, None, tiles, gravity, dt);
      r.velocity == (b.velocity.0, b.velocity.1 + gravity * dt) && r.onGround == b.onGround
  {
  }

  /**
   * With a hitbox, a tile overlapping the candidate box stops the entity on both axes;
   * with none the velocity is kept; and the entity is on the ground exactly when it was
   * blocked while moving down.
   */
  lemma StepWithHitbox(b: Body, hitbox: (real, real), tiles: seq<(int, int)>, gravity: real, dt: real)
    ensures var r := Step(b, Some(hitbox), tiles, gravity, dt);
      var vy := b.velocity.1 + gravity * dt;
      var blocked := Blocked(r.position, hitbox, tiles);
      && (blocked ==> r.velocity == (0.0, 0.0))
      && (!blocked ==> r.velocity == (b.velocity.0, vy))
      && (r.onGround <==> blocked && b.position.1 < r.position.1)
  {
    var r := Step(b, Some(hitbox), tiles, gravity, dt);
    var box := EntityBox(r.position.0, r.position.1, hitbox.0, hitbox.1);
    if Blocked(r.position, hitbox, tiles) {
      var k :| 0 <= k < |tiles| && Overlaps(box, TileBox(tiles[k]));
      assert FirstOverlap(box, tiles).Some?;
    } else {
      assert FirstOverlap(box, tiles).None?;
    }
  }

  /**
   * Boxes that only touch along an edge do not overlap, on any of the tile's four sides and
   * wherever along that side: standing exactly on a tile is not a hit.
   */
  lemma TouchingIsNotOverlap(x: real, y: real, width: real, height: real, t: (int, int))
    requires width > 0.0 && height > 0.0
    ensures !Overlaps(EntityBox(x, t.1 as real - height, width, height), TileBox(t))
    ensures !Overlaps(EntityBox(x, (t.1 + 1) as real, width, height), TileBox(t))
    ensures !Overlaps(EntityBox(t.0 as real - width, y, width, height), TileBox(t))
    ensures !Overlaps(EntityBox((t.0 + 1) as real, y, width, height), TileBox(t))
  {
  }

  /**
   * A 1 x 2 entity at rest at (0, 0) above a tile at (0, 2): one step with gravity 0.5 moves
   * it to (0, 0.5), into the tile, stops it and marks it on the ground.
   */
  lemma StepSinksIntoTile()
    ensures Step(Body((0.0, 0.0), (0.0, 0.0), false), Some((1.0, 2.0)), [(0, 2)], 0.5, 1.0)
         == Body((0.0, 0.5), (0.0, 0.0), true)
  {
    var box := EntityBox(0.0, 0.5, 1.0, 2.0);
    assert Overlaps(box, TileBox((0, 2)));
    assert FirstOverlap(box, [(0, 2)]) == Some(0);
  }
}

=== FILE: common_entities.dfy ===
/**
 * The shared entity classes of src/common/entities/: the same construction rules as the
 * game-side classes, without the physics state, and a player that also records its mode
 * and flight flags.
 */
module CommonEntities {
  import opened Wrappers
  import opened Errors
  import opened Values
  import opened Attributes
  import opened Hitboxes
  import opened EntityRules

  /** The play modes a player can be in; a new player is in "default". */
  const DefaultMode: string := "default"

  /** Which constructor built the entity; a player carries its username, mode and flight flags. */
  datatype EntityKind =
    | BaseEntity
    | NonPlayer
    | PlayerEntity(username: string, playerMode: string, allowFlight: bool, isFlying: bool)

  class Entity {
    var uuid: string
    var textureId: string
    var hitbox: Hitbox?
    var position: (real, real)
    var attributes: map<string, Attribute>
    var kind: EntityKind

    /** Field initialisation after the checks. */
    constructor Init(uuid: string, textureId: string, hitbox: Hitbox?, position: (real, real),
                     attributes: map<string, Attribute>, kind: EntityKind)
      ensures this.uuid == uuid && this.textureId == textureId && this.hitbox == hitbox
      ensures this.position == position && this.attributes == attributes && this.kind == kind
    {
      this.uuid := uuid;
      this.textureId := textureId;
      this.hitbox := hitbox;
      this.position := position;
      this.attributes := attributes;
      this.kind := kind;
    }

    /** The entity is exactly what the base constructor stores for these arguments. */
    ghost predicate Built(uuid: string, textureId: string, hitbox: HitboxArg, position: PositionArg,
                          attributes: Option<map<string, AttributeArg>>, kind: EntityKind)
      reads this
    {
      && ValidPosition(position) && AllAttributes(attributes)
      && this.uuid == uuid && this.textureId == textureId && this.hitbox == StoredHitbox(hitbox)
      && this.position == StoredPosition(position) && this.attributes == StoredAttributes(attributes)
      && this.kind == kind
    }

    /** The base constructor body, shared by the subclasses through `super().__init__`. */
    static method Construct(uuid: string, textureId: string, hitbox: HitboxArg, position: PositionArg,
                            attributes: Option<map<string, AttributeArg>>, kind: EntityKind)
      returns (r: Result<Entity, GameError>)
      ensures r.Failure? <==> EntityError(uuid, textureId, hitbox, position, attributes).Some?
      ensures r.Failure? ==> r.error == InvalidEntityData
      ensures r.Success? ==> fresh(r.value) && r.value.Built(uuid, textureId, hitbox, position, attributes, kind)
    {
      if uuid == [] {
        return Failure(InvalidEntityData);
      }
      if textureId == [] {
        return Failure(InvalidEntityData);
      }
      if hitbox.NotAHitbox? {
        return Failure(InvalidEntityData);
      }
      if !ValidPosition(position) {
        return Failure(InvalidEntityData);
      }
      var stored := CheckAttributes(attributes);
      if stored.Failure? {
        return Failure(stored.error);
      }
      var e := new Entity.Init(uuid, textureId, StoredHitbox(hitbox), StoredPosition(position), stored.value, kind);
      return Success(e);
    }

    /** `Entity(uuid, texture_id, hitbox, position, attributes)`. */
    static method New(uuid: string, textureId: string, hitbox: HitboxArg, position: PositionArg,
                      attributes: Option<map<string, AttributeArg>>)
      returns (r: Result<Entity, GameError>)
      ensures r.Failure? <==> EntityError(uuid, textureId, hitbox, position, attributes).Some?
      ensures r.Failure? ==> r.error == InvalidEntityData
      ensures r.Success? ==> fresh(r.value) && r.value.Built(uuid, textureId, hitbox, position, attributes, BaseEntity)
    {
      r := Construct(uuid, textureId, hitbox, position, attributes, BaseEntity);
    }

    /** `NonPlayerEntity(...)`: the uuid checks, then exactly the base construction. */
    static method NewNonPlayer(uuid: string, textureId: string, hitbox: HitboxArg, position: PositionArg,
                               attributes: Option<map<string, AttributeArg>>)
      returns (r: Result<Entity, GameError>)
      ensures r.Failure? <==> NonPlayerError(uuid, textureId, hitbox, position, attributes).Some?
      ensures r.Failure? ==> Some(r.error) == NonPlayerError(uuid, textureId, hitbox, position, attributes)
      ensures r.Success? ==> fresh(r.value) && r.value.Built(uuid, textureId, hitbox, position, attributes, NonPlayer)
    {
      if uuid == [] {
        return Failure(InvalidNonPlayerEntityData);
      }
      if !("#" <= uuid) {
        return Failure(InvalidNonPlayerEntityData);
      }
      r := Construct(uuid, textureId, hitbox, position, attributes, NonPlayer);
    }

    /**
     * `Player(uuid, username, position, attributes)`: fixed texture, a new 1.0 x 2.0 hitbox,
     * the default mode, flight neither allowed nor active.
     */
    static method NewPlayer(uuid: string, username: string, position: PositionArg,
                            attributes: Option<map<string, AttributeArg>>)
      returns (r: Result<Entity, GameError>)
      ensures r.Failure? <==> PlayerError(uuid, username, position, attributes).Some?
      ensures r.Failure? ==> Some(r.error) == PlayerError(uuid, username, position, attributes)
      ensures r.Success? ==>
        && fresh(r.value) && r.value.textureId == PlayerTexture
        && r.value.kind == PlayerEntity(username, DefaultMode, false, false)
        && r.value.hitbox != null && fresh(r.value.hitbox)
        && r.value.hitbox.width == 1.0 && r.value.hitbox.height == 2.0 && r.value.hitbox.Valid()
        && r.value.uuid == uuid && r.value.position == StoredPosition(position)
        && r.value.attributes == StoredAttributes(attributes)
    {
      if uuid == [] {
        return Failure(InvalidPlayerData);
      }
      if username == [] {
        return Failure(InvalidPlayerData);
      }
      var box := new Hitbox.Init(1.0, 2.0);
      r := Construct(uuid, PlayerTexture, HitboxObject(box), position, attributes,
                     PlayerEntity(username, DefaultMode, false, false));
    }
  }
}

=== FILE: entities.dfy ===
/**
 * The game-side entities of src/entities/: `Entity` with its physics state, the
 * `NonPlayerEntity` and `Player` constructors, and the `Physics` controller that mutates it.
 */
module Entities {
  import opened Wrappers
  import opened Errors
  import opened Values
  import opened Attributes
  import opened Hitboxes
  import opened Tiles
  import opened EntityRules
  import opened Collisions

  /** Which constructor built the entity; a player also carries its username. */
  datatype EntityKind = BaseEntity | NonPlayer | PlayerEntity(username: string)

  class Entity {
    var uuid: string
    var textureId: string
    var hitbox: Hitbox?
    var position: (real, real)
    var attributes: map<string, Attribute>
    var velocity: (real, real)
    var onGround: bool
    /** Attached from outside after construction. */
    var physics: Physics?
    var kind: EntityKind

    /** Field initialisation after the checks; physics state starts at rest, off the ground. */
    constructor Init(uuid: string, textureId: string, hitbox: Hitbox?, position: (real, real),
                     attributes: map<string, Attribute>, kind: EntityKind)
      ensures this.uuid == uuid && this.textureId == textureId && this.hitbox == hitbox
      ensures this.position == position && this.attributes == attributes && this.kind == kind
      ensures velocity == (0.0, 0.0) && !onGround && physics == null
    {
      this.uuid := uuid;
      this.textureId := textureId;
      this.hitbox := hitbox;
      this.position := position;
      this.attributes := attributes;
      this.kind := kind;
      velocity := (0.0, 0.0);
      onGround := false;
      physics := null;
    }

    /** The physics state as a value. */
    function State(): Body
      reads this
    {
      Body(position, velocity, onGround)
    }

    /** The entity is exactly what the base constructor stores for these arguments. */
    ghost predicate Built(uuid: string, textureId: string, hitbox: HitboxArg, position: PositionArg,
                          attributes: Option<map<string, AttributeArg>>, kind: EntityKind)
      reads this
    {
      && ValidPosition(position) && AllAttributes(attributes)
      && this.uuid == uuid && this.textureId == textureId && this.hitbox == StoredHitbox(hitbox)
      && this.position == StoredPosition(position) && this.attributes == StoredAttributes(attributes)
      && this.kind == kind
      && velocity == (0.0, 0.0) && !onGround && physics == null
    }

    /** The base constructor body, shared by the subclasses through `super().__init__`. */
    static method Construct(uuid: string, textureId: string, hitbox: HitboxArg, position: PositionArg,
                            attributes: Option<map<string, AttributeArg>>, kind: EntityKind)
      returns (r: Result<Entity, GameError>)
      ensures r.Failure? <==> EntityError(uuid, textureId, hitbox, position, attributes).Some?
      ensures r.Failure? ==> r.error == InvalidEntityData
      ensures r.Success? ==> fresh(r.value) && r.value.Built(uuid, textureId, hitbox, position, attributes, kind)
    {
      if uuid == [] {
        return Failure(InvalidEntityData);
      }
      if textureId == [] {
        return Failure(InvalidEntityData);
      }
      if hitbox.NotAHitbox? {
        return Failure(InvalidEntityData);
      }
      if !ValidPosition(position) {
        return Failure(InvalidEntityData);
      }
      var stored := CheckAttributes(attributes);
      if stored.Failure? {
        return Failure(stored.error);
      }
      var e := new Entity.Init(uuid, textureId, StoredHitbox(hitbox), StoredPosition(position), stored.value, kind);
      return Success(e);
    }

    /** `Entity(uuid, texture_id, hitbox, position, attributes)`. */
    static method New(uuid: string, textureId: string, hitbox: HitboxArg, position: PositionArg,
                      attributes: Option<map<string, AttributeArg>>)
      returns (r: Result<Entity, GameError>)
      ensures r.Failure? <==> EntityError(uuid, textureId, hitbox, position, attributes).Some?
      ensures r.Failure? ==> r.error == InvalidEntityData
      ensures r.Success? ==> fresh(r.value) && r.value.Built(uuid, textureId, hitbox, position, attributes, BaseEntity)
    {
      r := Construct(uuid, textureId, hitbox, position, attributes, BaseEntity);
    }

    /** `NonPlayerEntity(...)`: the uuid checks, then exactly the base construction. */
    static method NewNonPlayer(uuid: string, textureId: string, hitbox: HitboxArg, position: PositionArg,
                               attributes: Option<map<string, AttributeArg>>)
      returns (r: Result<Entity, GameError>)
      ensures r.Failure? <==> NonPlayerError(uuid, textureId, hitbox, position, attributes).Some?
      ensures r.Failure? ==> Some(r.error) == NonPlayerError(uuid, textureId, hitbox, position, attributes)
      ensures r.Success? ==> fresh(r.value) && r.value.Built(uuid, textureId, hitbox, position, attributes, NonPlayer)
    {
      if uuid == [] {
        return Failure(InvalidNonPlayerEntityData);
      }
      if !("#" <= uuid) {
        return Failure(InvalidNonPlayerEntityData);
      }
      r := Construct(uuid, textureId, hitbox, position, attributes, NonPlayer);
    }

    /** `Player(uuid, username, position, attributes)`: fixed texture and a new 1.0 x 2.0 hitbox. */
    static method NewPlayer(uuid: string, username: string, position: PositionArg,
                            attributes: Option<map<string, AttributeArg>>)
      returns (r: Result<Entity, GameError>)
      ensures r.Failure? <==> PlayerError(uuid, username, position, attributes).Some?
      ensures r.Failure? ==> Some(r.error) == PlayerError(uuid, username, position, attributes)
      ensures r.Success? ==>
        && fresh(r.value) && r.value.textureId == PlayerTexture && r.value.kind == PlayerEntity(username)
        && r.value.hitbox != null && fresh(r.value.hitbox)
        && r.value.hitbox.width == 1.0 && r.value.hitbox.height == 2.0 && r.value.hitbox.Valid()
        && r.value.uuid == uuid && r.value.position == StoredPosition(position)
        && r.value.attributes == StoredAttributes(attributes)
        && r.value.velocity == (0.0, 0.0) && !r.value.onGround && r.value.physics == null
    {
      if uuid == [] {
        return Failure(InvalidPlayerData);
      }
      if username == [] {
        return Failure(InvalidPlayerData);
      }
      var box := new Hitbox.Init(1.0, 2.0);
      r := Construct(uuid, PlayerTexture, HitboxObject(box), position, attributes, PlayerEntity(username));
    }
  }

  /** The hitbox size the physics step uses, if the entity has a hitbox. */
  function HitboxSize(h: Hitbox?): Option<(real, real)>
    reads h
  {
    if h == null then None else Some((h.width, h.height))
  }

  /** The tile coordinates, in list order. */
  ghost function Coords(ts: seq<Tile>): (r: seq<(int, int)>)
    reads ts
    ensures |r| == |ts|
    ensures forall k :: 0 <= k < |ts| ==> r[k] == (ts[k].x, ts[k].y)
  {
    seq(|ts|, k requires 0 <= k < |ts| reads ts => (ts[k].x, ts[k].y))
  }

  /**
   * One pass of the collision loop of `apply`: whether some tile's box overlaps `box`,
   * stopping at the first that does.
   */
  method ScanTiles(box: Box, tiles: seq<Tile>) returns (hit: bool)
    ensures hit <==> FirstOverlap(box, Coords(tiles)).Some?
  {
    var i := 0;
    while i < |tiles|
      invariant 0 <= i <= |tiles|
      invariant forall k :: 0 <= k < i ==> !Overlaps(box, TileBox(Coords(tiles)[k]))
    {
      var tileBox := TileBox((tiles[i].x, tiles[i].y));
      if box.left < tileBox.right && box.right > tileBox.left && box.top < tileBox.bottom && box.bottom > tileBox.top {
        return true;
      }
      i := i + 1;
    }
    return false;
  }

  /** The physics controller of one entity against a list of world tiles. */
  class Physics {
    const entity: Entity
    var worldTiles: seq<Tile>

    constructor (entity: Entity, worldTiles: seq<Tile>)
      ensures this.entity == entity && this.worldTiles == worldTiles
    {
      this.entity := entity;
      this.worldTiles := worldTiles;
    }

    /** `get_attr(key, default)`: the attribute's value if the entity has one under `key`. */
    function GetAttr(key: string, default: real): real
      reads entity`attributes, entity.attributes.Values`value
    {
      if key in entity.attributes then entity.attributes[key].value else default
    }

    /**
     * `apply(dt)`: gravity, the candidate position, the two first-hit scans and the
     * committed state, exactly as `Step` describes them.
     */
    method Apply(dt: real)
      modifies entity`velocity, entity`position, entity`onGround
      ensures entity.State() ==
        Step(old(entity.State()), HitboxSize(entity.hitbox), Coords(worldTiles), GetAttr("gravity", 0.5), dt)
    {
      var gravity := GetAttr("gravity", 0.5);
      var vx := entity.velocity.0;
      var vy := Advance(entity.velocity.1, gravity, dt);
      var origY := entity.position.1;
      var newX := Advance(entity.position.0, vx, dt);
      var newY := Advance(origY, vy, dt);

      var hitbox := entity.hitbox;
      if hitbox == null {
        entity.velocity := (vx, vy);
        entity.position := (newX, newY);
        return;
      }

      var box := EntityBox(newX, newY, hitbox.width, hitbox.height);
      var collidedX := ScanTiles(box, worldTiles);
      if collidedX {
        vx := 0.0;
      }
      var collidedY := ScanTiles(box, worldTiles);
      if collidedY {
        vy := 0.0;
      }

      entity.position := (newX, newY);
      entity.velocity := (vx, vy);
      entity.onGround := collidedY && vy == 0.0 && origY < newY;
    }

    /** `move_left`: horizontal velocity becomes minus the move speed (default 5.0). */
    method MoveLeft()
      modifies entity`velocity
      ensures entity.velocity == (-GetAttr("move_speed", 5.0), old(entity.velocity.1))
    {
      entity.velocity := (-GetAttr("move_speed", 5.0), entity.velocity.1);
    }

    /** `move_right`: horizontal velocity becomes the move speed (default 5.0). */
    method MoveRight()
      modifies entity`velocity
      ensures entity.velocity == (GetAttr("move_speed", 5.0), old(entity.velocity.1))
    {
      entity.velocity := (GetAttr("move_speed", 5.0), entity.velocity.1);
    }

    /** `stop_horizontal`: horizontal velocity becomes 0. */
    method StopHorizontal()
      modifies entity`velocity
      ensures entity.velocity == (0.0, old(entity.velocity.1))
    {
      entity.velocity := (0.0, entity.velocity.1);
    }

    /** `jump`: only from the ground; vertical velocity becomes minus the jump height (default 10.0). */
    method Jump()
      modifies entity`velocity, entity`onGround
      ensures old(entity.onGround) ==>
        entity.velocity == (old(entity.velocity.0), -GetAttr("jump_height", 10.0)) && !entity.onGround
      ensures !old(entity.onGround) ==> entity.velocity == old(entity.velocity) && !entity.onGround
    {
      if entity.onGround {
        entity.velocity := (entity.velocity.0, -GetAttr("jump_height", 10.0));
        entity.onGround := false;
      }
    }
  }

  /** Without attributes every tunable takes its default: gravity 0.5, move speed 5.0, jump height 10.0. */
  lemma DefaultTunables(p: Physics)
    requires p.entity.attributes == map[]
    ensures p.GetAttr("gravity", 0.5) == 0.5
    ensures p.GetAttr("move_speed", 5.0) == 5.0
    ensures p.GetAttr("jump_height", 10.0) == 10.0
  {
  }

  /** A stored attribute overrides the default, whatever the default is. */
  lemma StoredTunable(p: Physics, key: string, d: real)
    requires key in p.entity.attributes
    ensures p.GetAttr(key, d) == p.entity.attributes[key].value
  {
  }
}

=== FILE: entity_rules.dfy ===
/**
 * The construction rules shared by the two copies of the entity classes
 * (under src/entities and src/common/entities): which arguments are refused, in
 * which order, and with which error.
 */
module EntityRules {
  import opened Wrappers
  import opened Errors
  import opened Values
  import opened Attributes
  import opened Hitboxes

  /** A hitbox argument: none, a Hitbox object, or an object of another class. */
  datatype HitboxArg = NoHitbox | HitboxObject(box: Hitbox) | NotAHitbox

  /** An entry of the attributes dictionary: an Attribute object or something else. */
  datatype AttributeArg = AttributeObject(attribute: Attribute) | NotAnAttribute

  const MissingTexture: string := "openbench.missing"
  const PlayerTexture: string := "openbench.player"

  /** A tuple or a list of exactly two elements. */
  predicate ValidPosition(p: PositionArg)
  {
    (p.TupleArg? || p.ListArg?) && |p.items| == 2
  }

  predicate AllAttributes(attributes: Option<map<string, AttributeArg>>)
  {
    attributes.Some? ==> forall k :: k in attributes.value ==> attributes.value[k].AttributeObject?
  }

  /** The base `Entity.__init__` checks: uuid, texture id, hitbox class, position, attributes. */
  function EntityError(uuid: string, textureId: string, hitbox: HitboxArg, position: PositionArg,
                       attributes: Option<map<string, AttributeArg>>): (r: Option<GameError>)
    ensures r.None? <==>
      uuid != [] && textureId != [] && !hitbox.NotAHitbox? && ValidPosition(position) && AllAttributes(attributes)
    ensures r.Some? ==> r.value == InvalidEntityData
  {
    if uuid == [] then Some(InvalidEntityData)
    else if textureId == [] then Some(InvalidEntityData)
    else if hitbox.NotAHitbox? then Some(InvalidEntityData)
    else if !ValidPosition(position) then Some(InvalidEntityData)
    else if !AllAttributes(attributes) then Some(InvalidEntityData)
    else None
  }

  /** `NonPlayerEntity.__init__`: an empty uuid or one without the '#' prefix first, then the base checks. */
  function NonPlayerError(uuid: string, textureId: string, hitbox: HitboxArg, position: PositionArg,
                          attributes: Option<map<string, AttributeArg>>): (r: Option<GameError>)
    ensures uuid == [] || !("#" <= uuid) ==> r == Some(InvalidNonPlayerEntityData)
    ensures "#" <= uuid ==> r == EntityError(uuid, textureId, hitbox, position, attributes)
  {
    if uuid == [] then Some(InvalidNonPlayerEntityData)
    else if !("#" <= uuid) then Some(InvalidNonPlayerEntityData)
    else EntityError(uuid, textureId, hitbox, position, attributes)
  }

  /**
   * `Player.__init__`: uuid, then username, then the base checks with the fixed texture and
   * a fresh hitbox, so only the position and the attributes can still fail there.
   */
  function PlayerError(uuid: string, username: string, position: PositionArg,
                       attributes: Option<map<string, AttributeArg>>): (r: Option<GameError>)
    ensures uuid == [] || username == [] ==> r == Some(InvalidPlayerData)
    ensures uuid != [] && username != [] ==>
      (r.None? <==> ValidPosition(position) && AllAttributes(attributes))
    ensures r.Some? ==> r.value in {InvalidPlayerData, InvalidEntityData}
  {
    if uuid == [] then Some(InvalidPlayerData)
    else if username == [] then Some(InvalidPlayerData)
    else EntityError(uuid, PlayerTexture, NoHitbox, position, attributes)
  }

  /** The attributes stored on success: `attributes or {}`, unwrapped. */
  function StoredAttributes(attributes: Option<map<string, AttributeArg>>): (m: map<string, Attribute>)
    requires AllAttributes(attributes)
    ensures attributes.None? ==> m == map[]
    ensures attributes.Some? ==> m.Keys == attributes.value.Keys
    ensures attributes.Some? ==> forall k :: k in m ==> m[k] == attributes.value[k].attribute
  {
    if attributes.None? then map[]
    else map k | k in attributes.value :: attributes.value[k].attribute
  }

  /** The position stored on success, from a tuple or a list of two. */
  function StoredPosition(p: PositionArg): (real, real)
    requires ValidPosition(p)
  {
    (p.items[0], p.items[1])
  }

  function StoredHitbox(h: HitboxArg): Hitbox?
  {
    if h.HitboxObject? then h.box else null
  }

  /**
   * The loop over `(attributes or {}).items()`: it stops at the first entry that is not an
   * Attribute; otherwise it yields the map that is stored.
   */
  method CheckAttributes(attributes: Option<map<string, AttributeArg>>)
    returns (r: Result<map<string, Attribute>, GameError>)
    ensures r.Success? <==> AllAttributes(attributes)
    ensures r.Failure? ==> r.error == InvalidEntityData
    ensures r.Success? ==> r.value == StoredAttributes(attributes)
  {
    var m := if attributes.Some? then attributes.value else map[];
    var todo := m.Keys;
    while todo != {}
      invariant todo <= m.Keys
      invariant forall k :: k in m && k !in todo ==> m[k].AttributeObject?
      decreases |todo|
    {
      var k :| k in todo;
      if m[k].NotAnAttribute? {
        return Failure(InvalidEntityData);
      }
      todo := todo - {k};
    }
    return Success(StoredAttributes(attributes));
  }

  /**
   * The order of the checks decides the error: a '#' uuid with an empty texture fails in the
   * base class, a uuid without '#' fails first even with an empty texture, and "#" alone is
   * an acceptable non-player uuid.
   */
  lemma NonPlayerCheckOrder(position: PositionArg)
    requires ValidPosition(position)
    ensures NonPlayerError("#", "", NoHitbox, position, None) == Some(InvalidEntityData)
    ensures NonPlayerError("a", "", NoHitbox, position, None) == Some(InvalidNonPlayerEntityData)
    ensures NonPlayerError("#", MissingTexture, NoHitbox, position, None).None?
  {
    assert "#" <= "#";
    assert "a"[0] != '#';
  }

  /** A non-player uuid must be a '#'-prefixed string, and any such uuid passes that check. */
  lemma NonPlayerAccepts(uuid: string, textureId: string, hitbox: HitboxArg, position: PositionArg,
                         attributes: Option<map<string, AttributeArg>>)
    ensures NonPlayerError(uuid, textureId, hitbox, position, attributes).None? <==>
      |uuid| > 0 && uuid[0] == '#' && EntityError(uuid, textureId, hitbox, position, attributes).None?
  {
    if |uuid| > 0 && uuid[0] == '#' {
      assert "#" <= uuid;
    } else if uuid != [] {
      assert !("#" <= uuid);
    }
  }
}

=== FILE: errors.dfy ===
/** The exception classes of src/errors.py (and src/common/errors.py) that the core raises. */
module Errors {

  datatype GameError =
    | InvalidChunkData
    | InvalidEntityData
    | InvalidPlayerData
    | InvalidNonPlayerEntityData
    | InvalidAttribute
    | InvalidCameraData
    | InvalidHitboxData
}

=== FILE: hitbox.dfy ===
/** The axis-aligned hitbox of src/entities/hitbox.py. */
module Hitboxes {
  import opened Wrappers
  import opened Errors

  /** The derived fields agree with the dimensions: area, perimeter and centre. */
  predicate Derived(width: real, height: real, area: real, perimeter: real, center: (real, real))
  {
    area == width * height && perimeter == 2.0 * (width + height) && center == (width / 2.0, height / 2.0)
  }

  class Hitbox {
    var width: real
    var height: real
    var area: real
    var perimeter: real
    var center: (real, real)

    /** Positive dimensions, and derived fields consistent with them. */
    ghost predicate Valid()
      reads this
    {
      width > 0.0 && height > 0.0 && Derived(width, height, area, perimeter, center)
    }

    /** Field initialisation once both dimensions are known to be positive. */
    constructor Init(width: real, height: real)
      requires width > 0.0 && height > 0.0
      ensures this.width == width && this.height == height
      ensures Valid()
    {
      this.width := width;
      this.height := height;
      area := width * height;
      perimeter := 2.0 * (width + height);
      center := (width / 2.0, height / 2.0);
    }

    /** `Hitbox(width, height)`: a non-positive dimension fails. */
    static method New(width: real, height: real) returns (r: Result<Hitbox, GameError>)
      ensures r.Failure? <==> width <= 0.0 || height <= 0.0
      ensures r.Failure? ==> r.error == InvalidHitboxData
      ensures r.Success? ==> fresh(r.value) && r.value.width == width && r.value.height == height
      ensures r.Success? ==> r.value.Valid()
    {
      if width <= 0.0 || height <= 0.0 {
        return Failure(InvalidHitboxData);
      }
      var h := new Hitbox.Init(width, height);
      return Success(h);
    }

    /** `contains_point`: the closed box [0, width] x [0, height] in the hitbox's own frame. */
    predicate ContainsPoint(x: real, y: real)
      reads this
      ensures ContainsPoint(x, y) ==> width >= 0.0 && height >= 0.0
    {
      0.0 <= x <= width && 0.0 <= y <= height
    }

    /**
     * `resize`: a non-positive dimension fails and changes nothing; otherwise all five
     * fields are replaced together.
     */
    method Resize(newWidth: real, newHeight: real) returns (r: Outcome<GameError>)
      modifies this
      ensures r.Fail? <==> newWidth <= 0.0 || newHeight <= 0.0
      ensures r.Fail? ==> r.error == InvalidHitboxData && unchanged(this)
      ensures r.Pass? ==> width == newWidth && height == newHeight && Valid()
      ensures old(Valid()) ==> Valid()
    {
      if newWidth <= 0.0 || newHeight <= 0.0 {
        return Fail(InvalidHitboxData);
      }
      width := newWidth;
      height := newHeight;
      area := newWidth * newHeight;
      perimeter := 2.0 * (newWidth + newHeight);
      center := (newWidth / 2.0, newHeight / 2.0);
      return Pass;
    }
  }

  /** A valid hitbox contains its four corners and its centre, and nothing left of or above it. */
  lemma ContainsCornersAndCenter(h: Hitbox, x: real, y: real)
    requires h.Valid()
    ensures h.ContainsPoint(0.0, 0.0) && h.ContainsPoint(h.width, 0.0)
    ensures h.ContainsPoint(0.0, h.height) && h.ContainsPoint(h.width, h.height)
    ensures h.ContainsPoint(h.center.0, h.center.1)
    ensures x < 0.0 || y < 0.0 || x > h.width || y > h.height ==> !h.ContainsPoint(x, y)
  {
  }

  /** The derived fields are determined by the dimensions: the perimeter exceeds zero and the area is w*h. */
  lemma DerivedPositive(width: real, height: real, area: real, perimeter: real, center: (real, real))
    requires width > 0.0 && height > 0.0 && Derived(width, height, area, perimeter, center)
    ensures area > 0.0 && perimeter > 0.0
    ensures 0.0 < center.0 < width && 0.0 < center.1 < height
  {
    assert area == width * height;
  }
}

=== FILE: keybinds.dfy ===
/**
 * The action-to-key bindings of src/keybinds.py: which actions are active for a set of
 * pressed keys, and how the bindings are read from the settings by key name.
 */
module Keybinds {
  import opened Wrappers

  /** The pygame key codes the settings can name. */
  const KeyW: int := 119
  const KeyA: int := 97
  const KeyD: int := 100
  const KeyS: int := 115
  const KeySpace: int := 32
  const KeyRight: int := 1073741903
  const KeyLeft: int := 1073741904
  const KeyDown: int := 1073741905
  const KeyUp: int := 1073741906

  /** Key names accepted in the settings and the codes they stand for. */
  const KeyMap: map<string, int> := map[
    "W" := KeyW, "A" := KeyA, "D" := KeyD, "S" := KeyS,
    "LEFT" := KeyLeft, "RIGHT" := KeyRight, "UP" := KeyUp, "DOWN" := KeyDown,
    "SPACE" := KeySpace
  ]

  /** `any(pressed[k] for k in keys)`: some key bound to the action is held down. */
  function AnyPressed(keys: seq<int>, pressed: set<int>): (r: bool)
    ensures r <==> exists i :: 0 <= i < |keys| && keys[i] in pressed
  {
    if keys == [] then false
    else if keys[0] in pressed then true
    else
      assert forall i :: 1 <= i < |keys| ==> keys[i] == keys[1..][i - 1];
      AnyPressed(keys[1..], pressed)
  }

  /** The actions `update` marks active: those with at least one pressed key. */
  function ActiveActions(keybinds: map<string, seq<int>>, pressed: set<int>): (r: set<string>)
    ensures r <= keybinds.Keys
  {
    set a | a in keybinds && AnyPressed(keybinds[a], pressed)
  }

  class KeybindManager {
    var keybinds: map<string, seq<int>>
    var active: set<string>

    /** `KeybindManager(keybinds)`: no action is active yet. */
    constructor (keybinds: map<string, seq<int>>)
      ensures this.keybinds == keybinds && active == {}
    {
      this.keybinds := keybinds;
      active := {};
    }

    /**
     * `update()`, with the keys held down passed in: the active set is rebuilt from scratch,
     * so it depends only on the bindings and the pressed keys.
     */
    method Update(pressed: set<int>)
      modifies this`active
      ensures active == ActiveActions(keybinds, pressed)
    {
      active := {};
      var todo := keybinds.Keys;
      while todo != {}
        invariant todo <= keybinds.Keys
        invariant forall a :: a in active <==> a in keybinds && a !in todo && AnyPressed(keybinds[a], pressed)
        decreases |todo|
      {
        var a :| a in todo;
        if AnyPressed(keybinds[a], pressed) {
          active := active + {a};
        }
        todo := todo - {a};
      }
    }

    /** `is_active(action)`. */
    predicate IsActive(action: string)
      reads this
    {
      action in active
    }

    /** `get_active_actions()`: a copy holding exactly the active actions. */
    function GetActiveActions(): (s: set<string>)
      reads this
      ensures forall a :: a in s <==> IsActive(a)
    {
      active
    }

    /** `from_settings(settings)`, given the "keybinds" entry of the settings if there is one. */
    static method FromSettings(settings: Option<map<string, seq<string>>>) returns (m: KeybindManager)
      ensures fresh(m) && m.keybinds == BindingsFromSettings(settings) && m.active == {}
    {
      var entries := if settings.Some? then settings.value else map[];
      var keybinds: map<string, seq<int>> := map[];
      var todo := entries.Keys;
      while todo != {}
        invariant todo <= entries.Keys
        invariant keybinds.Keys == entries.Keys - todo
        invariant forall a :: a in keybinds ==> keybinds[a] == FilterKeyNames(entries[a])
        decreases |todo|
      {
        var a :| a in todo;
        keybinds := keybinds[a := FilterKeyNames(entries[a])];
        todo := todo - {a};
      }
      m := new KeybindManager(keybinds);
    }
  }

  /** `[key_map[k] for k in keys if k in key_map]`: known names translated, unknown ones dropped. */
  function FilterKeyNames(keys: seq<string>): (r: seq<int>)
    ensures |r| <= |keys|
    ensures forall i :: 0 <= i < |r| ==> r[i] in KeyMap.Values
  {
    if keys == [] then []
    else (if keys[0] in KeyMap then [KeyMap[keys[0]]] else []) + FilterKeyNames(keys[1..])
  }

  /** The bindings `from_settings` builds: every action listed, with its known keys in order. */
  function BindingsFromSettings(settings: Option<map<string, seq<string>>>): (r: map<string, seq<int>>)
    ensures settings.None? ==> r == map[]
    ensures settings.Some? ==> r.Keys == settings.value.Keys
  {
    var entries := if settings.Some? then settings.value else map[];
    map a | a in entries :: FilterKeyNames(entries[a])
  }

  /** Every bound action is active exactly when one of its keys is pressed, and nothing else is. */
  lemma ActiveIff(keybinds: map<string, seq<int>>, pressed: set<int>, a: string)
    ensures a in ActiveActions(keybinds, pressed) <==>
      a in keybinds && exists k :: k in keybinds[a] && k in pressed
  {
    if a in keybinds && exists k :: k in keybinds[a] && k in pressed {
      var k :| k in keybinds[a] && k in pressed;
      var i :| 0 <= i < |keybinds[a]| && keybinds[a][i] == k;
      assert AnyPressed(keybinds[a], pressed);
    }
  }

  /** An action without keys is never active, and unbound actions are never active. */
  lemma UnboundNeverActive(keybinds: map<string, seq<int>>, pressed: set<int>, a: string)
    requires a !in keybinds || keybinds[a] == []
    ensures a !in ActiveActions(keybinds, pressed)
  {
  }

  /** Pressing more keys never deactivates an action. */
  lemma ActiveMonotone(keybinds: map<string, seq<int>>, pressed: set<int>, more: set<int>)
    requires pressed <= more
    ensures ActiveActions(keybinds, pressed) <= ActiveActions(keybinds, more)
  {
    forall a | a in ActiveActions(keybinds, pressed)
      ensures a in ActiveActions(keybinds, more)
    {
      var i :| 0 <= i < |keybinds[a]| && keybinds[a][i] in pressed;
      assert keybinds[a][i] in more;
    }
  }

  /** No two key names share a code. */
  lemma KeyMapInjective(n: string, m: string)
    requires n in KeyMap && m in KeyMap && KeyMap[n] == KeyMap[m]
    ensures n == m
  {
  }

  /** Filtering keeps order: the names of a concatenation filter to the concatenation. */
  lemma {:induction false} FilterKeyNamesAppend(a: seq<string>, b: seq<string>)
    ensures FilterKeyNames(a + b) == FilterKeyNames(a) + FilterKeyNames(b)
  {
    if a == [] {
      assert a + b == b;
    } else {
      assert (a + b)[1..] == a[1..] + b;
      FilterKeyNamesAppend(a[1..], b);
    }
  }

  /** A code is in the filtered list exactly when some listed name stands for it. */
  lemma {:induction false} FilterKeyNamesMembership(keys: seq<string>, code: int)
    ensures code in FilterKeyNames(keys) <==> exists k :: k in keys && k in KeyMap && KeyMap[k] == code
  {
    if keys != [] {
      FilterKeyNamesMembership(keys[1..], code);
      if exists k :: k in keys[1..] && k in KeyMap && KeyMap[k] == code {
        var k :| k in keys[1..] && k in KeyMap && KeyMap[k] == code;
        assert k in keys;
      }
      if exists k :: k in keys && k in KeyMap && KeyMap[k] == code {
        var k :| k in keys && k in KeyMap && KeyMap[k] == code;
        if k != keys[0] {
          assert k in keys[1..];
        }
      }
    }
  }

  /** Unknown names are skipped: "Q" and "ENTER" contribute nothing, the rest keep their order. */
  lemma FilterKeyNamesExample()
    ensures FilterKeyNames(["A", "Q", "LEFT", "ENTER", "SPACE"]) == [KeyA, KeyLeft, KeySpace]
  {
  }

  /**
   * End to end: after `from_settings` and an update, an action is active exactly when the
   * settings list a known key name for it whose key is pressed.
   */
  lemma SettingsActive(settings: map<string, seq<string>>, pressed: set<int>, a: string)
    ensures a in ActiveActions(BindingsFromSettings(Some(settings)), pressed) <==>
      a in settings && exists k :: k in settings[a] && k in KeyMap && KeyMap[k] in pressed
  {
    var kb := BindingsFromSettings(Some(settings));
    ActiveIff(kb, pressed, a);
    if a in settings {
      assert kb[a] == FilterKeyNames(settings[a]);
      if exists code :: code in kb[a] && code in pressed {
        var code :| code in kb[a] && code in pressed;
        FilterKeyNamesMembership(settings[a], code);
      }
      if exists k :: k in settings[a] && k in KeyMap && KeyMap[k] in pressed {
        var k :| k in settings[a] && k in KeyMap && KeyMap[k] in pressed;
        FilterKeyNamesMembership(settings[a], KeyMap[k]);
      }
    }
  }
}

=== FILE: movement.dfy ===
/**
 * The fly-mode controller of src/entities/movement.py: the held direction actions set the
 * player's velocity outright, and the player moves by that velocity in one update.
 */
module Movement {
  import opened Keybinds
  import opened Entities

  /** The speed, per update, along each axis while flying. */
  const FlySpeed: real := 8.0

  /** +1 when only the positive key is held, -1 when only the negative one, 0 otherwise. */
  function Direction(negative: bool, positive: bool): int
  {
    (if positive then 1 else 0) - (if negative then 1 else 0)
  }

  /** The fly velocity for a set of active actions: "left"/"right" horizontally, "up"/"down" vertically. */
  function FlyVelocity(active: set<string>): (v: (real, real))
    ensures v.0 in {-FlySpeed, 0.0, FlySpeed} && v.1 in {-FlySpeed, 0.0, FlySpeed}
  {
    (FlySpeed * Direction("left" in active, "right" in active) as real,
     FlySpeed * Direction("up" in active, "down" in active) as real)
  }

  /**
   * Opposite directions cancel, a single direction gives the full fly speed that way,
   * and no other action has any effect.
   */
  lemma FlyVelocityCases(active: set<string>)
    ensures var v := FlyVelocity(active);
      && (v.0 == 0.0 <==> ("left" in active <==> "right" in active))
      && (v.0 == -FlySpeed <==> "left" in active && "right" !in active)
      && (v.0 == FlySpeed <==> "right" in active && "left" !in active)
      && (v.1 == 0.0 <==> ("up" in active <==> "down" in active))
      && (v.1 == -FlySpeed <==> "up" in active && "down" !in active)
      && (v.1 == FlySpeed <==> "down" in active && "up" !in active)
  {
  }

  /** Only the four direction actions matter. */
  lemma FlyVelocityIgnoresOthers(active: set<string>, other: string)
    requires other !in {"left", "right", "up", "down"}
    ensures FlyVelocity(active + {other}) == FlyVelocity(active)
  {
  }

  class PlayerMovement {
    const player: Entity
    const keybindManager: KeybindManager

    constructor (player: Entity, keybindManager: KeybindManager)
      ensures this.player == player && this.keybindManager == keybindManager
    {
      this.player := player;
      this.keybindManager := keybindManager;
    }

    /**
     * `update()`: the velocity becomes the fly velocity of the active actions, the position
     * moves by it, and the player is taken off the ground.
     */
    method Update()
      modifies player`velocity, player`position, player`onGround
      ensures player.velocity == FlyVelocity(keybindManager.active)
      ensures player.position == (old(player.position.0) + player.velocity.0, old(player.position.1) + player.velocity.1)
      ensures !player.onGround
    {
      var vx, vy := 0.0, 0.0;
      if keybindManager.IsActive("left") {
        vx := vx - FlySpeed;
      }
      if keybindManager.IsActive("right") {
        vx := vx + FlySpeed;
      }
      if keybindManager.IsActive("up") {
        vy := vy - FlySpeed;
      }
      if keybindManager.IsActive("down") {
        vy := vy + FlySpeed;
      }
      player.velocity := (vx, vy);
      player.position := (player.position.0 + player.velocity.0, player.position.1 + player.velocity.1);
      player.onGround := false;
    }
  }
}

=== FILE: set_tile.dfy ===
/**
 * `set_tile` (src/world/set_tile.py) as the source runs it: scans over the chunk list
 * and a chunk's tile list, then in-place append, overwrite and removal.
 */
module TileMutation {
  import opened Wrappers
  import opened Tiles
  import opened Chunks
  import opened TileEdits

  /** Python's `list.remove(x)`: drops the first element equal to `x` (here: the same object). */
  function RemoveFirst<T(==)>(s: seq<T>, x: T): seq<T>
    requires x in s
  {
    if s[0] == x then s[1..] else [s[0]] + RemoveFirst(s[1..], x)
  }

  /** Removing the first occurrence of `x`, found at index i, cuts out exactly index i. */
  lemma {:induction false} RemoveFirstAt<T>(s: seq<T>, x: T, i: nat)
    requires i < |s| && s[i] == x && x !in s[..i]
    ensures RemoveFirst(s, x) == s[..i] + s[i + 1..]
  {
    if i > 0 {
      assert s[0] != x by { assert s[0] == s[..i][0]; }
      assert x !in s[1..][..i - 1] by { assert s[1..][..i - 1] == s[1..i]; }
      RemoveFirstAt(s[1..], x, i - 1);
      assert [s[0]] + (s[1..][..i - 1] + s[1..][i..]) == s[..i] + s[i + 1..];
    }
  }

  predicate DistinctTiles(ts: seq<Tile>)
  {
    forall a, b :: 0 <= a < b < |ts| ==> ts[a] != ts[b]
  }

  /** Cutting one tile out of a list of distinct tiles leaves distinct tiles, all from the list. */
  lemma CutKeepsDistinct(ts: seq<Tile>, j: nat)
    requires j < |ts| && DistinctTiles(ts)
    ensures DistinctTiles(ts[..j] + ts[j + 1..])
    ensures forall x :: x in ts[..j] + ts[j + 1..] ==> x in ts
  {
    var r := ts[..j] + ts[j + 1..];
    forall a, b | 0 <= a < b < |r| ensures r[a] != r[b] {
      var a' := if a < j then a else a + 1;
      var b' := if b < j then b else b + 1;
      assert r[a] == ts[a'] && r[b] == ts[b'];
    }
  }

  predicate DistinctChunks(cs: seq<Chunk>)
  {
    forall a, b :: 0 <= a < b < |cs| ==> cs[a] != cs[b]
  }

  /** Each list holds distinct tiles, and no tile occurs in two lists. */
  predicate Owned(tss: seq<seq<Tile>>)
  {
    && (forall k :: 0 <= k < |tss| ==> DistinctTiles(tss[k]))
    && (forall p, q, x :: 0 <= p < |tss| && 0 <= q < |tss| && p != q && x in tss[p] ==> x !in tss[q])
  }

  lemma OwnedCut(tss: seq<seq<Tile>>, i: nat, j: nat)
    requires Owned(tss) && i < |tss| && j < |tss[i]|
    ensures Owned(tss[i := tss[i][..j] + tss[i][j + 1..]])
  {
    CutKeepsDistinct(tss[i], j);
  }

  lemma OwnedDrop(tss: seq<seq<Tile>>, i: nat)
    requires Owned(tss) && i < |tss|
    ensures Owned(tss[..i] + tss[i + 1..])
  {
    var r := tss[..i] + tss[i + 1..];
    forall k | 0 <= k < |r| ensures r[k] == tss[if k < i then k else k + 1] { }
  }

  lemma OwnedAppend(tss: seq<seq<Tile>>, i: nat, t: Tile)
    requires Owned(tss) && i < |tss| && forall k :: 0 <= k < |tss| ==> t !in tss[k]
    ensures Owned(tss[i := tss[i] + [t]])
  {
    var ts := tss[i] + [t];
    forall a, b | 0 <= a < b < |ts| ensures ts[a] != ts[b] {
      if b < |tss[i]| {
        assert ts[a] == tss[i][a] && ts[b] == tss[i][b];
      } else {
        assert ts[a] == tss[i][a];
      }
    }
  }

  lemma OwnedPush(tss: seq<seq<Tile>>, ts: seq<Tile>)
    requires Owned(tss) && DistinctTiles(ts)
    requires forall k, x :: 0 <= k < |tss| && x in ts ==> x !in tss[k]
    ensures Owned(tss + [ts])
  {
  }

  /** The tile lists of the chunks `cs`, in order. */
  ghost function TileLists(cs: seq<Chunk>): (r: seq<seq<Tile>>)
    reads cs
    ensures |r| == |cs|
    ensures forall k :: 0 <= k < |cs| ==> r[k] == cs[k].tiles
  {
    seq(|cs|, k requires 0 <= k < |cs| reads cs => cs[k].tiles)
  }

  /** The chunk list handed to `set_tile`, which the source mutates in place. */
  class ChunkList {
    var items: seq<Chunk>

    constructor (items: seq<Chunk>)
      ensures this.items == items
    {
      this.items := items;
    }

    /** Every tile object held by some chunk of the list. */
    ghost function Tiles(): set<Tile>
      reads this, items
    {
      TilesOf(items)
    }

    /**
     * Ownership as the data model states it: the chunks are distinct objects, and every
     * tile object belongs to one chunk and occurs in it once.
     */
    ghost predicate Valid()
      reads this, items
    {
      DistinctChunks(items) && Owned(TileLists(items))
    }

    /** The chunks and tiles the list holds, as values. */
    ghost function Value(): seq<ChunkValue>
      reads this, items, Tiles()
    {
      ChunkValues(items)
    }
  }

  /** Every tile object held by a chunk of `cs`. */
  ghost function TilesOf(cs: seq<Chunk>): (ts: set<Tile>)
    reads cs
    ensures forall k, t :: 0 <= k < |cs| && t in cs[k].tiles ==> t in ts
  {
    set c, t | c in cs && t in c.tiles :: t
  }

  ghost function ChunkValues(cs: seq<Chunk>): (r: seq<ChunkValue>)
    reads cs, TilesOf(cs)
    ensures |r| == |cs|
    ensures forall k :: 0 <= k < |cs| ==> r[k] == cs[k].Value()
  {
    seq(|cs|, k requires 0 <= k < |cs| reads cs, TilesOf(cs) => cs[k].Value())
  }

  /**
   * `set_tile(chunks, world_x, world_y, tile_type)`: the list and its chunks change exactly
   * as `Edit` says, and the returned chunk and tile are the objects the source returns.
   * The chunk is returned even when clearing its last tile has just removed it.
   */
  method SetTile(chunks: ChunkList, worldX: real, worldY: real, tileType: Option<string>)
    returns (chunk: Chunk?, tile: Tile?)
    requires chunks.Valid()
    modifies chunks`items, chunks.items`tiles, chunks.Tiles()`tileType
    ensures chunks.Valid()
    ensures var a := Locate(worldX, worldY);
      chunks.Value() == Edit(old(chunks.Value()), a.chunk, a.localX, a.localY, tileType)
    ensures var a := Locate(worldX, worldY);
      var found := FindChunk(old(chunks.Value()), a.chunk);
      && (found.Some? ==> found.value < |old(chunks.items)| && chunk == old(chunks.items)[found.value])
      && (found.None? ==> (chunk == null <==> tileType.None?))
      && (found.None? && chunk != null ==> fresh(chunk) && chunks.items == old(chunks.items) + [chunk])
    ensures tileType.None? ==> tile == null
    ensures var a := Locate(worldX, worldY);
      tileType.Some? ==>
        && chunk != null && tile != null && tile in chunk.tiles
        && tile.x == a.localX && tile.y == a.localY && tile.tileType == tileType.value
    ensures var a := Locate(worldX, worldY);
      var found := FindChunk(old(chunks.Value()), a.chunk);
      found.Some? && tileType.Some? ==>
        var at := FindTile(old(chunks.Value())[found.value].tiles, a.localX, a.localY);
        && (at.Some? ==> at.value < |old(chunk.tiles)| && tile == old(chunk.tiles)[at.value])
        && (at.None? ==> fresh(tile))
        && (at.Some? ==> chunk.tiles == old(chunk.tiles))
        && (at.None? ==> chunk.tiles == old(chunk.tiles) + [tile])
    ensures FindChunk(old(chunks.Value()), Locate(worldX, worldY).chunk).None? && tileType.Some? ==> fresh(tile)
    ensures FindChunk(old(chunks.Value()), Locate(worldX, worldY).chunk).None? && tileType.None? ==>
      chunks.items == old(chunks.items)
    ensures forall c :: c in old(chunks.items) && c != chunk ==> c.tiles == old(c.tiles)
    ensures forall c, t :: c in old(chunks.items) && t in old(c.tiles) && t != tile ==> t.tileType == old(t.tileType)
    ensures var found := FindChunk(old(chunks.Value()), Locate(worldX, worldY).chunk);
      found.Some? && chunk in chunks.items ==> chunks.items == old(chunks.items)
    ensures var found := FindChunk(old(chunks.Value()), Locate(worldX, worldY).chunk);
      found.Some? && chunk !in chunks.items ==>
        && found.value < |old(chunks.items)| && tileType.None? && chunk.tiles == []
        && chunks.items == old(chunks.items[..found.value] + chunks.items[found.value + 1..])
  {
    var a := Locate(worldX, worldY);
    ghost var before := chunks.Value();
    var found := ScanChunks(chunks, a.chunk);
    assert chunks.Value() == before by {
      forall k | 0 <= k < |chunks.items| ensures chunks.items[k].Value() == before[k] { }
    }
    assert found == FindChunk(old(chunks.Value()), a.chunk);
    if found.Some? {
      assert Edit(before, a.chunk, a.localX, a.localY, tileType) == EditAt(before, found.value, a.localX, a.localY, tileType);
      chunk := chunks.items[found.value];
      tile := EditChunk(chunks, found.value, chunk, a.localX, a.localY, tileType);
      return;
    }
    if tileType.None? {
      return null, null;
    }
    assert Edit(before, a.chunk, a.localX, a.localY, tileType)
        == before + [ChunkValue(a.chunk, [NewTile(a.localX, a.localY, tileType.value)])];
    chunk, tile := AddChunk(chunks, a.chunk, a.localX, a.localY, tileType.value);
  }

  /** Lines 40-43: a new chunk at `position` holding one new tile is appended to the list. */
  method AddChunk(chunks: ChunkList, position: (int, int), x: int, y: int, tileType: string)
    returns (chunk: Chunk, tile: Tile)
    requires chunks.Valid()
    modifies chunks`items
    ensures chunks.Valid()
    ensures fresh(chunk) && fresh(tile)
    ensures chunks.items == old(chunks.items) + [chunk]
    ensures chunk.tiles == [tile] && chunk.position == position
    ensures tile.x == x && tile.y == y && tile.tileType == tileType
    ensures chunks.Value() == old(chunks.Value()) + [ChunkValue(position, [NewTile(x, y, tileType)])]
  {
    ghost var before := chunks.Value();
    tile := new Tile(x, y, tileType, None);
    chunk := new Chunk.Init(position, [tile]);
    assert chunk.Value() == ChunkValue(position, [NewTile(x, y, tileType)]);
    assert chunks.Value() == before by {
      forall k | 0 <= k < |chunks.items| ensures chunks.items[k].Value() == before[k] { }
    }
    PushChunk(chunks, chunk);
  }

  /** Lines 21-34: the edit once the chunk has been found at index i. */
  method EditChunk(chunks: ChunkList, i: nat, c: Chunk, x: int, y: int, tileType: Option<string>)
    returns (tile: Tile?)
    requires chunks.Valid() && i < |chunks.items| && chunks.items[i] == c
    modifies chunks`items, c`tiles, c.tiles`tileType
    ensures chunks.Valid()
    ensures chunks.Value() == EditAt(old(chunks.Value()), i, x, y, tileType)
    ensures tileType.None? ==> tile == null
    ensures tileType.Some? ==>
      && tile != null && tile in c.tiles
      && tile.x == x && tile.y == y && tile.tileType == tileType.value
    ensures tileType.Some? ==>
      var at := FindTile(old(chunks.Value())[i].tiles, x, y);
      && (at.Some? ==> at.value < |old(c.tiles)| && tile == old(c.tiles)[at.value])
      && (at.None? ==> fresh(tile))
    ensures tileType.Some? ==>
      var at := FindTile(old(chunks.Value())[i].tiles, x, y);
      && (at.Some? ==> c.tiles == old(c.tiles))
      && (at.None? ==> c.tiles == old(c.tiles) + [tile])
    ensures forall u :: u in old(c.tiles) && u != tile ==> u.tileType == old(u.tileType)
    ensures forall d :: d in old(chunks.items) && d != c ==> d.tiles == old(d.tiles)
    ensures forall d, t :: d in old(chunks.items) && t in old(d.tiles) && t != tile ==> t.tileType == old(t.tileType)
    ensures c in chunks.items ==> chunks.items == old(chunks.items)
    ensures c !in chunks.items ==>
      && tileType.None? && c.tiles == []
      && chunks.items == old(chunks.items[..i] + chunks.items[i + 1..])
  {
    ghost var cs := chunks.Value();
    var at := ScanTiles(c, x, y);
    assert chunks.Value() == cs;
    assert cs[i] == c.Value();
    if tileType.None? {
      ClearFound(chunks, i, c, at, x, y);
      return null;
    }
    tile := PutTile(chunks, i, c, at, x, y, tileType.value);
  }

  /** Lines 25-28: clearing removes the tile found at index `at`, if any. */
  method ClearFound(chunks: ChunkList, i: nat, c: Chunk, at: Option<nat>, x: int, y: int)
    requires chunks.Valid() && i < |chunks.items| && chunks.items[i] == c
    requires at == FindTile(chunks.Value()[i].tiles, x, y)
    modifies chunks`items, c`tiles
    ensures chunks.Valid()
    ensures chunks.Value() == EditAt(old(chunks.Value()), i, x, y, None)
    ensures at.None? ==> chunks.items == old(chunks.items) && c.tiles == old(c.tiles)
    ensures at.Some? ==> at.value < |old(c.tiles)| && c.tiles == old(c.tiles[..at.value] + c.tiles[at.value + 1..])
    ensures at.Some? && c.tiles == [] ==> chunks.items == old(chunks.items[..i] + chunks.items[i + 1..]) && c !in chunks.items
    ensures at.Some? && c.tiles != [] ==> chunks.items == old(chunks.items)
  {
    if at.Some? {
      ghost var cs := chunks.Value();
      ghost var rest := cs[i].tiles[..at.value] + cs[i].tiles[at.value + 1..];
      assert EditAt(cs, i, x, y, None) ==
        if rest == [] then cs[..i] + cs[i + 1..] else cs[i := ChunkValue(cs[i].position, rest)];
      ClearTile(chunks, i, c, at.value, c.tiles[at.value]);
    }
  }

  /** Lines 30-34: the tile found at index `at` is retyped, or a new tile is appended. */
  method PutTile(chunks: ChunkList, i: nat, c: Chunk, at: Option<nat>, x: int, y: int, tileType: string)
    returns (tile: Tile)
    requires chunks.Valid() && i < |chunks.items| && chunks.items[i] == c
    requires at == FindTile(chunks.Value()[i].tiles, x, y)
    modifies c`tiles, c.tiles`tileType
    ensures chunks.Valid()
    ensures chunks.Value() == EditAt(old(chunks.Value()), i, x, y, Some(tileType))
    ensures tile in c.tiles && tile.x == x && tile.y == y && tile.tileType == tileType
    ensures at.Some? ==> at.value < |old(c.tiles)| && tile == old(c.tiles)[at.value]
    ensures at.None? ==> fresh(tile)
    ensures at.Some? ==> c.tiles == old(c.tiles)
    ensures at.None? ==> c.tiles == old(c.tiles) + [tile]
    ensures forall u :: u in old(c.tiles) && u != tile ==> u.tileType == old(u.tileType)
  {
    if at.None? {
      tile := new Tile(x, y, tileType, None);
      assert tile.Value() == NewTile(x, y, tileType);
      AppendTile(chunks, i, c, tile);
    } else {
      tile := c.tiles[at.value];
      OverwriteTile(chunks, i, at.value, tile, tileType);
    }
  }

  /** Lines 16-19: the first chunk of the list at `position`, by a linear scan. */
  method ScanChunks(chunks: ChunkList, position: (int, int)) returns (found: Option<nat>)
    requires chunks.Valid()
    ensures found == FindChunk(chunks.Value(), position)
    ensures found.Some? ==> found.value < |chunks.items|
  {
    var i := 0;
    while i < |chunks.items|
      invariant 0 <= i <= |chunks.items|
      invariant forall k :: 0 <= k < i ==> chunks.items[k].position != position
    {
      if chunks.items[i].position == position {
        return Some(i);
      }
      i := i + 1;
    }
    return None;
  }

  /** Lines 21-24: the first tile of `chunk` at local (x, y), by a linear scan. */
  method ScanTiles(chunk: Chunk, x: int, y: int) returns (found: Option<nat>)
    ensures found == FindTile(chunk.Value().tiles, x, y)
    ensures found.Some? ==> found.value < |chunk.tiles|
  {
    var j := 0;
    while j < |chunk.tiles|
      invariant 0 <= j <= |chunk.tiles|
      invariant forall k :: 0 <= k < j ==> !(chunk.tiles[k].x == x && chunk.tiles[k].y == y)
    {
      if chunk.tiles[j].x == x && chunk.tiles[j].y == y {
        return Some(j);
      }
      j := j + 1;
    }
    return None;
  }

  /** Lines 26-28: removes tile j of chunk i, then the chunk itself if no tile is left. */
  method ClearTile(chunks: ChunkList, i: nat, c: Chunk, j: nat, t: Tile)
    requires chunks.Valid() && i < |chunks.items| && chunks.items[i] == c
    requires j < |c.tiles| && c.tiles[j] == t
    modifies chunks`items, c`tiles
    ensures chunks.Valid()
    ensures var cs := old(chunks.Value());
      var ts := cs[i].tiles;
      var rest := ts[..j] + ts[j + 1..];
      chunks.Value() == if rest == [] then cs[..i] + cs[i + 1..] else cs[i := ChunkValue(cs[i].position, rest)]
    ensures c.tiles == old(c.tiles[..j] + c.tiles[j + 1..])
    ensures c.tiles == [] ==> chunks.items == old(chunks.items[..i] + chunks.items[i + 1..]) && c !in chunks.items
    ensures c.tiles != [] ==> chunks.items == old(chunks.items)
  {
    ghost var cs := chunks.Value();
    CutTile(chunks, i, c, j, t);
    if c.tiles == [] {
      ghost var cut := chunks.Value();
      DropChunk(chunks, i, c);
      assert cut[..i] + cut[i + 1..] == cs[..i] + cs[i + 1..];
    }
  }

  /** Line 26: `chunk.tiles.remove(tile)`, which cuts tile j out of chunk i. */
  method CutTile(chunks: ChunkList, i: nat, c: Chunk, j: nat, t: Tile)
    requires chunks.Valid() && i < |chunks.items| && chunks.items[i] == c
    requires j < |c.tiles| && c.tiles[j] == t
    modifies c`tiles
    ensures chunks.Valid()
    ensures c.tiles == old(c.tiles[..j] + c.tiles[j + 1..])
    ensures var cs := old(chunks.Value());
      chunks.Value() == cs[i := ChunkValue(cs[i].position, cs[i].tiles[..j] + cs[i].tiles[j + 1..])]
  {
    ghost var cs := chunks.Value();
    ghost var items := chunks.items;
    ghost var ts := c.tiles;
    assert t !in ts[..j] by {
      forall k | 0 <= k < j ensures ts[..j][k] != t {
        assert ts[..j][k] == ts[k];
      }
    }
    ghost var tss := TileLists(items);
    RemoveFirstAt(ts, t, j);
    c.tiles := RemoveFirst(c.tiles, t);
    assert Values(c.tiles) == cs[i].tiles[..j] + cs[i].tiles[j + 1..];
    forall k | 0 <= k < |items| && k != i
      ensures items[k].tiles == tss[k] && items[k].Value() == cs[k]
    {
      assert items[k] != c;
    }
    assert TileLists(items) == tss[i := ts[..j] + ts[j + 1..]];
    OwnedCut(tss, i, j);
  }

  /** Line 28: `chunks.remove(chunk)`, which drops chunk i from the list. */
  method DropChunk(chunks: ChunkList, i: nat, c: Chunk)
    requires chunks.Valid() && i < |chunks.items| && chunks.items[i] == c
    modifies chunks`items
    ensures chunks.Valid()
    ensures chunks.items == old(chunks.items[..i] + chunks.items[i + 1..]) && c !in chunks.items
    ensures var cs := old(chunks.Value());
      chunks.Value() == cs[..i] + cs[i + 1..]
  {
    ghost var cs := chunks.Value();
    ghost var items := chunks.items;
    assert c !in items[..i] by {
      forall k | 0 <= k < i ensures items[..i][k] != c {
        assert items[..i][k] == items[k];
      }
    }
    ghost var tss := TileLists(items);
    RemoveFirstAt(items, c, i);
    chunks.items := RemoveFirst(chunks.items, c);
    ghost var left := chunks.items;
    forall k | 0 <= k < |left|
      ensures left[k] == items[if k < i then k else k + 1]
      ensures left[k].Value() == (cs[..i] + cs[i + 1..])[k]
      ensures left[k].tiles == (tss[..i] + tss[i + 1..])[k]
      ensures left[k] != c
    {
      var k' := if k < i then k else k + 1;
      assert left[k] == items[k'];
    }
    assert TileLists(left) == tss[..i] + tss[i + 1..];
    OwnedDrop(tss, i);
  }

  /** Lines 31-32: appends a new tile object to the tile list of chunk i. */
  method AppendTile(chunks: ChunkList, i: nat, c: Chunk, t: Tile)
    requires chunks.Valid() && i < |chunks.items| && chunks.items[i] == c && t !in chunks.Tiles()
    modifies c`tiles
    ensures chunks.Valid()
    ensures c.tiles == old(c.tiles) + [t]
    ensures var cs := old(chunks.Value());
      chunks.Value() == cs[i := ChunkValue(cs[i].position, cs[i].tiles + [t.Value()])]
  {
    ghost var cs := chunks.Value();
    ghost var items := chunks.items;
    ghost var tss := TileLists(items);
    assert forall k :: 0 <= k < |tss| ==> t !in tss[k];
    c.tiles := c.tiles + [t];
    assert Values(c.tiles) == cs[i].tiles + [t.Value()];
    forall k | 0 <= k < |items| && k != i ensures items[k].Value() == cs[k] && items[k].tiles == tss[k] {
      assert items[k] != c;
    }
    assert TileLists(items) == tss[i := tss[i] + [t]];
    OwnedAppend(tss, i, t);
  }

  /** Line 34: overwrites the type of tile j of chunk i in place. */
  method OverwriteTile(chunks: ChunkList, i: nat, j: nat, t: Tile, tileType: string)
    requires chunks.Valid() && i < |chunks.items| && j < |chunks.items[i].tiles|
    requires chunks.items[i].tiles[j] == t
    modifies t`tileType
    ensures chunks.Valid()
    ensures var cs := old(chunks.Value());
      chunks.Value() == cs[i := ChunkValue(cs[i].position, cs[i].tiles[j := cs[i].tiles[j].(tileType := tileType)])]
  {
    ghost var cs := chunks.Value();
    ghost var tss := TileLists(chunks.items);
    t.tileType := tileType;
    ghost var items := chunks.items;
    assert TileLists(items) == tss;
    forall k | 0 <= k < |items| && k != i ensures t !in items[k].tiles {
      assert t in tss[i];
    }
    assert Values(items[i].tiles) == cs[i].tiles[j := cs[i].tiles[j].(tileType := tileType)] by {
      forall a | 0 <= a < |items[i].tiles| && a != j ensures items[i].tiles[a] != t { }
    }
  }

  /** Line 42: appends a new chunk object to the list. */
  method PushChunk(chunks: ChunkList, c: Chunk)
    requires chunks.Valid() && c !in chunks.items
    requires DistinctTiles(c.tiles)
    requires forall t :: t in c.tiles ==> t !in chunks.Tiles()
    modifies chunks`items
    ensures chunks.Valid()
    ensures chunks.items == old(chunks.items) + [c]
    ensures chunks.Value() == old(chunks.Value()) + [c.Value()]
  {
    ghost var tss := TileLists(chunks.items);
    chunks.items := chunks.items + [c];
    assert TileLists(chunks.items) == tss + [c.tiles];
    OwnedPush(tss, c.tiles);
  }
}

=== FILE: set_tile_spec.dfy ===
/**
 * The value-level meaning of `set_tile` (src/world/set_tile.py): how a world-pixel
 * coordinate is split into chunk and local tile coordinates, and how one call edits
 * the chunk list. The imperative operation in module TileMutation is proved to
 * change the heap exactly as `Edit` says.
 */
module TileEdits {
  import opened Wrappers
  import opened Tiles
  import opened Chunks

  /** Tile edge in world pixels, and chunk edge in tiles. */
  const TileSize: int := 16
  const ChunkSize: int := 16

  /** `int(world // 16)`: the tile index whose 16-pixel span contains `world` (true floor). */
  function TileOf(world: real): (t: int)
    ensures (TileSize * t) as real <= world < (TileSize * t + TileSize) as real
  {
    var q := world / 16.0;
    assert q.Floor as real <= q < q.Floor as real + 1.0;
    (world / 16.0).Floor
  }

  /** Where a tile lives: the chunk coordinate and the chunk-local tile coordinate. */
  datatype Address = Address(chunk: (int, int), localX: int, localY: int)

  /** Lines 6-11: tile = floor(world / 16), chunk = floor(tile / 16), local = tile mod 16. */
  function Locate(worldX: real, worldY: real): (a: Address)
    ensures 0 <= a.localX < ChunkSize && 0 <= a.localY < ChunkSize
    ensures TileOf(worldX) == ChunkSize * a.chunk.0 + a.localX
    ensures TileOf(worldY) == ChunkSize * a.chunk.1 + a.localY
  {
    var tx, ty := TileOf(worldX), TileOf(worldY);
    Address((tx / ChunkSize, ty / ChunkSize), tx % ChunkSize, ty % ChunkSize)
  }

  /**
   * Floor semantics, not truncation: whenever a chunk `cx` and a local coordinate
   * `lx` in 0..15 describe a 16-pixel span containing `worldX`, `Locate` picks them.
   */
  lemma LocateIsFloor(worldX: real, worldY: real, cx: int, lx: int)
    requires 0 <= lx < ChunkSize
    requires (TileSize * (ChunkSize * cx + lx)) as real <= worldX
    requires worldX < (TileSize * (ChunkSize * cx + lx) + TileSize) as real
    ensures Locate(worldX, worldY).chunk.0 == cx && Locate(worldX, worldY).localX == lx
  {
    var t := TileOf(worldX);
    var u := ChunkSize * cx + lx;
    assert t == u;
  }

  /** World pixel -1 lies in tile -1, which is local tile 15 of chunk -1. */
  lemma LocateMinusOne()
    ensures Locate(-1.0, -1.0) == Address((-1, -1), 15, 15)
  {
    assert TileOf(-1.0) == -1;
  }

  /** The index of the first chunk at `pos` (the scan of lines 14-17). */
  function FindChunk(cs: seq<ChunkValue>, pos: (int, int)): (r: Option<nat>)
    ensures r.Some? ==> r.value < |cs| && cs[r.value].position == pos
    ensures r.Some? ==> forall k :: 0 <= k < r.value ==> cs[k].position != pos
    ensures r.None? <==> forall k :: 0 <= k < |cs| ==> cs[k].position != pos
  {
    if cs == [] then None
    else if cs[0].position == pos then Some(0)
    else match FindChunk(cs[1..], pos)
      case None => None
      case Some(k) => Some(k + 1)
  }

  /** The index of the first tile at local `(x, y)` (the scan of lines 20-23). */
  function FindTile(ts: seq<TileValue>, x: int, y: int): (r: Option<nat>)
    ensures r.Some? ==> r.value < |ts| && ts[r.value].x == x && ts[r.value].y == y
    ensures r.Some? ==> forall k :: 0 <= k < r.value ==> !(ts[k].x == x && ts[k].y == y)
    ensures r.None? <==> forall k :: 0 <= k < |ts| ==> !(ts[k].x == x && ts[k].y == y)
  {
    if ts == [] then None
    else if ts[0].x == x && ts[0].y == y then Some(0)
    else match FindTile(ts[1..], x, y)
      case None => None
      case Some(k) => Some(k + 1)
  }

  /** A tile created by `Tile(local_x, local_y, tile_type)`: no block state. */
  function NewTile(x: int, y: int, tileType: string): TileValue
  {
    TileValue(x, y, tileType, map[])
  }

  /**
   * The chunk list after `set_tile` addressed chunk `pos`, local tile `(x, y)`,
   * with `tileType` (None clears).
   */
  function Edit(cs: seq<ChunkValue>, pos: (int, int), x: int, y: int, tileType: Option<string>): seq<ChunkValue>
  {
    match FindChunk(cs, pos)
    case None =>
      if tileType.None? then cs
      else cs + [ChunkValue(pos, [NewTile(x, y, tileType.value)])]
    case Some(i) => EditAt(cs, i, x, y, tileType)
  }

  /** The edit once the chunk has been found at index i. */
  function EditAt(cs: seq<ChunkValue>, i: nat, x: int, y: int, tileType: Option<string>): seq<ChunkValue>
    requires i < |cs|
  {
    var ts := cs[i].tiles;
    match FindTile(ts, x, y)
    case None =>
      if tileType.None? then cs
      else cs[i := ChunkValue(cs[i].position, ts + [NewTile(x, y, tileType.value)])]
    case Some(j) =>
      if tileType.None? then
        var rest := ts[..j] + ts[j + 1..];
        if rest == [] then cs[..i] + cs[i + 1..]
        else cs[i := ChunkValue(cs[i].position, rest)]
      else cs[i := ChunkValue(cs[i].position, ts[j := ts[j].(tileType := tileType.value)])]
  }

  /** The first chunk at `pos`, as a reader scanning the list finds it. */
  function ChunkAt(cs: seq<ChunkValue>, pos: (int, int)): Option<ChunkValue>
  {
    match FindChunk(cs, pos)
    case None => None
    case Some(i) => Some(cs[i])
  }

  /** The type of the first tile at local `(x, y)`. */
  function TypeAt(ts: seq<TileValue>, x: int, y: int): Option<string>
  {
    match FindTile(ts, x, y)
    case None => None
    case Some(j) => Some(ts[j].tileType)
  }

  /** The type of the tile a reader finds at `(pos, x, y)` by the same first-match scans. */
  function Lookup(cs: seq<ChunkValue>, pos: (int, int), x: int, y: int): Option<string>
  {
    match ChunkAt(cs, pos)
    case None => None
    case Some(c) => TypeAt(c.tiles, x, y)
  }

  predicate NoEmptyChunks(cs: seq<ChunkValue>)
  {
    forall k :: 0 <= k < |cs| ==> cs[k].tiles != []
  }

  predicate UniquePositions(cs: seq<ChunkValue>)
  {
    forall i, j :: 0 <= i < j < |cs| ==> cs[i].position != cs[j].position
  }

  predicate UniqueTiles(ts: seq<TileValue>)
  {
    forall a, b :: 0 <= a < b < |ts| ==> !(ts[a].x == ts[b].x && ts[a].y == ts[b].y)
  }

  /** The shape `set_tile` keeps: no empty chunk, one chunk per position, one tile per cell. */
  predicate WellFormed(cs: seq<ChunkValue>)
  {
    && NoEmptyChunks(cs)
    && UniquePositions(cs)
    && (forall k :: 0 <= k < |cs| ==> UniqueTiles(cs[k].tiles))
  }

  /** The total number of tiles held by all chunks. */
  function TileCount(cs: seq<ChunkValue>): nat
  {
    if cs == [] then 0 else |cs[0].tiles| + TileCount(cs[1..])
  }

  // ---------------------------------------------------------------------------
  // Scans over edited sequences

  lemma {:induction false} FindChunkSamePositions(cs: seq<ChunkValue>, ds: seq<ChunkValue>, p: (int, int))
    requires |cs| == |ds|
    requires forall k :: 0 <= k < |cs| ==> cs[k].position == ds[k].position
    ensures FindChunk(cs, p) == FindChunk(ds, p)
  {
    if cs != [] {
      FindChunkSamePositions(cs[1..], ds[1..], p);
    }
  }

  lemma ChunkAtAppend(cs: seq<ChunkValue>, c: ChunkValue, p: (int, int))
    ensures ChunkAt(cs + [c], p) ==
      if ChunkAt(cs, p).Some? then ChunkAt(cs, p)
      else if c.position == p then Some(c) else None
  {
    var r := cs + [c];
    match FindChunk(cs, p)
    case Some(i) =>
      assert r[i] == cs[i];
      assert FindChunk(r, p) == Some(i);
    case None =>
      if c.position == p {
        assert r[|cs|] == c;
        assert FindChunk(r, p) == Some(|cs|);
      } else {
        assert forall k :: 0 <= k < |r| ==> r[k].position != p by {
          forall k | 0 <= k < |r| ensures r[k].position != p {
            if k < |cs| { assert r[k] == cs[k]; }
          }
        }
      }
  }

  /** The element at k of a sequence with index i cut out. */
  lemma RemoveAtIndex<T>(s: seq<T>, i: nat, k: nat)
    requires i < |s| && k < |s| - 1
    ensures |s[..i] + s[i + 1..]| == |s| - 1
    ensures (s[..i] + s[i + 1..])[k] == if k < i then s[k] else s[k + 1]
  {
  }

  /** With one chunk per position, cutting out the chunk at a position leaves none there. */
  lemma RemovedChunkGone(cs: seq<ChunkValue>, i: nat)
    requires UniquePositions(cs) && i < |cs|
    ensures FindChunk(cs[..i] + cs[i + 1..], cs[i].position).None?
  {
    var r := cs[..i] + cs[i + 1..];
    forall k | 0 <= k < |r| ensures r[k].position != cs[i].position {
      RemoveAtIndex(cs, i, k);
    }
  }

  /** With one tile per cell, cutting out the tile of a cell leaves none there. */
  lemma RemovedTileGone(ts: seq<TileValue>, j: nat)
    requires UniqueTiles(ts) && j < |ts|
    ensures FindTile(ts[..j] + ts[j + 1..], ts[j].x, ts[j].y).None?
  {
    var r := ts[..j] + ts[j + 1..];
    forall k | 0 <= k < |r| ensures !(r[k].x == ts[j].x && r[k].y == ts[j].y) {
      RemoveAtIndex(ts, j, k);
    }
  }

  lemma ChunkAtRemove(cs: seq<ChunkValue>, i: nat, p: (int, int))
    requires i < |cs| && cs[i].position != p
    ensures ChunkAt(cs[..i] + cs[i + 1..], p) == ChunkAt(cs, p)
  {
    var r := cs[..i] + cs[i + 1..];
    match FindChunk(cs, p)
    case Some(m) =>
      var m' := if m < i then m else m - 1;
      RemoveAtIndex(cs, i, m');
      forall k | 0 <= k < m' ensures r[k].position != p {
        RemoveAtIndex(cs, i, k);
      }
      assert FindChunk(r, p) == Some(m');
    case None =>
      forall k | 0 <= k < |r| ensures r[k].position != p {
        RemoveAtIndex(cs, i, k);
      }
  }

  lemma ChunkAtUpdate(cs: seq<ChunkValue>, i: nat, c: ChunkValue, p: (int, int))
    requires i < |cs| && c.position == cs[i].position
    requires FindChunk(cs, cs[i].position) == Some(i)
    ensures ChunkAt(cs[i := c], p) == if p == c.position then Some(c) else ChunkAt(cs, p)
  {
    FindChunkSamePositions(cs[i := c], cs, p);
  }

  lemma ChunkAtUnique(cs: seq<ChunkValue>, k: nat)
    requires UniquePositions(cs) && k < |cs|
    ensures FindChunk(cs, cs[k].position) == Some(k)
  {
  }

  lemma TypeAtAppend(ts: seq<TileValue>, t: TileValue, x: int, y: int)
    ensures TypeAt(ts + [t], x, y) ==
      if TypeAt(ts, x, y).Some? then TypeAt(ts, x, y)
      else if t.x == x && t.y == y then Some(t.tileType) else None
  {
    var r := ts + [t];
    match FindTile(ts, x, y)
    case Some(j) =>
      assert r[j] == ts[j];
      assert FindTile(r, x, y) == Some(j);
    case None =>
      if t.x == x && t.y == y {
        assert r[|ts|] == t;
        assert FindTile(r, x, y) == Some(|ts|);
      } else {
        assert forall k :: 0 <= k < |r| ==> !(r[k].x == x && r[k].y == y) by {
          forall k | 0 <= k < |r| ensures !(r[k].x == x && r[k].y == y) {
            if k < |ts| { assert r[k] == ts[k]; }
          }
        }
      }
  }

  lemma TypeAtRemove(ts: seq<TileValue>, j: nat, x: int, y: int)
    requires j < |ts| && !(ts[j].x == x && ts[j].y == y)
    ensures TypeAt(ts[..j] + ts[j + 1..], x, y) == TypeAt(ts, x, y)
  {
    var r := ts[..j] + ts[j + 1..];
    match FindTile(ts, x, y)
    case Some(m) =>
      var m' := if m < j then m else m - 1;
      RemoveAtIndex(ts, j, m');
      forall k | 0 <= k < m' ensures !(r[k].x == x && r[k].y == y) {
        RemoveAtIndex(ts, j, k);
      }
      assert FindTile(r, x, y) == Some(m');
    case None =>
      forall k | 0 <= k < |r| ensures !(r[k].x == x && r[k].y == y) {
        RemoveAtIndex(ts, j, k);
      }
  }

  lemma TypeAtOverwrite(ts: seq<TileValue>, j: nat, t: string, x: int, y: int)
    requires j < |ts| && FindTile(ts, ts[j].x, ts[j].y) == Some(j)
    ensures TypeAt(ts[j := ts[j].(tileType := t)], x, y) ==
      if x == ts[j].x && y == ts[j].y then Some(t) else TypeAt(ts, x, y)
  {
    var r := ts[j := ts[j].(tileType := t)];
    assert forall k :: 0 <= k < |ts| ==> r[k].x == ts[k].x && r[k].y == ts[k].y;
    match FindTile(ts, x, y)
    case Some(m) =>
      assert FindTile(r, x, y) == Some(m);
    case None =>
      assert FindTile(r, x, y).None?;
  }

  lemma {:induction false} TileCountAppend(a: seq<ChunkValue>, b: seq<ChunkValue>)
    ensures TileCount(a + b) == TileCount(a) + TileCount(b)
  {
    if a == [] {
      assert a + b == b;
    } else {
      assert (a + b)[1..] == a[1..] + b;
      TileCountAppend(a[1..], b);
    }
  }

  /** Splits the count around position i. */
  lemma TileCountAround(cs: seq<ChunkValue>, i: nat)
    requires i < |cs|
    ensures TileCount(cs) == TileCount(cs[..i]) + |cs[i].tiles| + TileCount(cs[i + 1..])
  {
    assert cs == cs[..i] + [cs[i]] + cs[i + 1..];
    TileCountAppend(cs[..i] + [cs[i]], cs[i + 1..]);
    TileCountAppend(cs[..i], [cs[i]]);
  }

  // ---------------------------------------------------------------------------
  // What one call of set_tile does

  /** Clearing where no chunk exists changes nothing (lines 36-38). */
  lemma ClearWithoutChunk(cs: seq<ChunkValue>, pos: (int, int), x: int, y: int)
    requires FindChunk(cs, pos).None?
    ensures Edit(cs, pos, x, y, None) == cs
  {
  }

  /**
   * Clearing inside an existing chunk (lines 24-29): the first tile at `(x, y)`, if any,
   * is removed; the chunk goes too exactly when that was its last tile; nothing else moves.
   */
  lemma ClearInChunk(cs: seq<ChunkValue>, pos: (int, int), x: int, y: int, i: nat)
    requires FindChunk(cs, pos) == Some(i)
    ensures var r := Edit(cs, pos, x, y, None);
      var ts := cs[i].tiles;
      match FindTile(ts, x, y)
      case None => r == cs
      case Some(j) =>
        && (|ts| == 1 ==> r == cs[..i] + cs[i + 1..])
        && (|ts| != 1 ==> r == cs[i := ChunkValue(pos, ts[..j] + ts[j + 1..])])
  {
    var ts := cs[i].tiles;
    match FindTile(ts, x, y)
    case None =>
    case Some(j) =>
      assert |ts[..j] + ts[j + 1..]| == |ts| - 1;
  }

  /**
   * Overwriting (lines 20-23, 33-35): the tile keeps its place, coordinates and block
   * state; only its type changes; the chunk keeps its tile count; all else is unchanged.
   */
  lemma OverwriteInPlace(cs: seq<ChunkValue>, pos: (int, int), x: int, y: int, t: string, i: nat, j: nat)
    requires FindChunk(cs, pos) == Some(i) && FindTile(cs[i].tiles, x, y) == Some(j)
    ensures var r := Edit(cs, pos, x, y, Some(t));
      && |r| == |cs| && r[i].position == pos
      && (forall k :: 0 <= k < |cs| && k != i ==> r[k] == cs[k])
      && |r[i].tiles| == |cs[i].tiles|
      && (forall a :: 0 <= a < |cs[i].tiles| && a != j ==> r[i].tiles[a] == cs[i].tiles[a])
      && r[i].tiles[j] == cs[i].tiles[j].(tileType := t)
  {
  }

  /** Adding to a chunk without a tile at `(x, y)` appends exactly one new tile (lines 30-32). */
  lemma AppendToChunk(cs: seq<ChunkValue>, pos: (int, int), x: int, y: int, t: string, i: nat)
    requires FindChunk(cs, pos) == Some(i) && FindTile(cs[i].tiles, x, y).None?
    ensures var r := Edit(cs, pos, x, y, Some(t));
      && |r| == |cs|
      && (forall k :: 0 <= k < |cs| && k != i ==> r[k] == cs[k])
      && r[i] == ChunkValue(pos, cs[i].tiles + [TileValue(x, y, t, map[])])
  {
  }

  /** Adding where no chunk exists appends one chunk holding only the new tile (lines 39-43). */
  lemma AppendChunk(cs: seq<ChunkValue>, pos: (int, int), x: int, y: int, t: string)
    requires FindChunk(cs, pos).None?
    ensures Edit(cs, pos, x, y, Some(t)) == cs + [ChunkValue(pos, [TileValue(x, y, t, map[])])]
  {
  }

  /** Round trip: after setting a type, a reader finds exactly that type at the same place. */
  lemma SetThenLookup(cs: seq<ChunkValue>, pos: (int, int), x: int, y: int, t: string)
    ensures Lookup(Edit(cs, pos, x, y, Some(t)), pos, x, y) == Some(t)
  {
    var r := Edit(cs, pos, x, y, Some(t));
    match FindChunk(cs, pos)
    case None =>
      ChunkAtAppend(cs, ChunkValue(pos, [NewTile(x, y, t)]), pos);
      TypeAtAppend([], NewTile(x, y, t), x, y);
    case Some(i) =>
      var ts := cs[i].tiles;
      match FindTile(ts, x, y)
      case None =>
        ChunkAtUpdate(cs, i, ChunkValue(pos, ts + [NewTile(x, y, t)]), pos);
        TypeAtAppend(ts, NewTile(x, y, t), x, y);
      case Some(j) =>
        ChunkAtUpdate(cs, i, ChunkValue(pos, ts[j := ts[j].(tileType := t)]), pos);
        TypeAtOverwrite(ts, j, t, x, y);
  }

  /** Clearing a well-formed list leaves nothing at that place. */
  lemma ClearThenLookup(cs: seq<ChunkValue>, pos: (int, int), x: int, y: int)
    requires WellFormed(cs)
    ensures Lookup(Edit(cs, pos, x, y, None), pos, x, y).None?
  {
    match FindChunk(cs, pos)
    case None =>
    case Some(i) =>
      var ts := cs[i].tiles;
      match FindTile(ts, x, y)
      case None =>
      case Some(j) =>
        var rest := ts[..j] + ts[j + 1..];
        if rest == [] {
          RemovedChunkGone(cs, i);
        } else {
          ChunkAtUpdate(cs, i, ChunkValue(pos, rest), pos);
          RemovedTileGone(ts, j);
        }
  }

  /** Every other place reads the same before and after one edit of a well-formed list. */
  lemma LookupElsewhere(cs: seq<ChunkValue>, pos: (int, int), x: int, y: int, tileType: Option<string>,
                        pos': (int, int), x': int, y': int)
    requires WellFormed(cs)
    requires (pos', x', y') != (pos, x, y)
    ensures Lookup(Edit(cs, pos, x, y, tileType), pos', x', y') == Lookup(cs, pos', x', y')
  {
    match FindChunk(cs, pos)
    case None =>
      if tileType.Some? {
        ChunkAtAppend(cs, ChunkValue(pos, [NewTile(x, y, tileType.value)]), pos');
        if pos' == pos {
          TypeAtAppend([], NewTile(x, y, tileType.value), x', y');
        }
      }
    case Some(i) => LookupElsewhereInChunk(cs, i, pos, x, y, tileType, pos', x', y');
  }

  /** The case of `LookupElsewhere` where chunk i is at the edited position. */
  lemma LookupElsewhereInChunk(cs: seq<ChunkValue>, i: nat, pos: (int, int), x: int, y: int,
                               tileType: Option<string>, pos': (int, int), x': int, y': int)
    requires WellFormed(cs) && FindChunk(cs, pos) == Some(i)
    requires (pos', x', y') != (pos, x, y)
    ensures Lookup(EditAt(cs, i, x, y, tileType), pos', x', y') == Lookup(cs, pos', x', y')
  {
    var ts := cs[i].tiles;
    match FindTile(ts, x, y)
    case None =>
      if tileType.Some? {
        LookupElsewhereAppended(cs, i, pos, x, y, tileType.value, pos', x', y');
      }
    case Some(j) =>
      assert pos' != pos || (x', y') != (ts[j].x, ts[j].y);
      if tileType.None? {
        var rest := ts[..j] + ts[j + 1..];
        assert EditAt(cs, i, x, y, tileType) ==
          if rest == [] then cs[..i] + cs[i + 1..] else cs[i := ChunkValue(cs[i].position, rest)];
        LookupElsewhereCleared(cs, i, j, pos, pos', x', y');
      } else {
        assert EditAt(cs, i, x, y, tileType) == cs[i := ChunkValue(pos, ts[j := ts[j].(tileType := tileType.value)])];
        LookupElsewhereOverwritten(cs, i, j, pos, tileType.value, pos', x', y');
      }
  }

  /** The appending case of `LookupElsewhere`: a new tile at (x, y) joined chunk i. */
  lemma LookupElsewhereAppended(cs: seq<ChunkValue>, i: nat, pos: (int, int), x: int, y: int, t: string,
                                pos': (int, int), x': int, y': int)
    requires FindChunk(cs, pos) == Some(i) && FindTile(cs[i].tiles, x, y).None?
    requires (pos', x', y') != (pos, x, y)
    ensures Lookup(cs[i := ChunkValue(pos, cs[i].tiles + [NewTile(x, y, t)])], pos', x', y') == Lookup(cs, pos', x', y')
  {
    var ts := cs[i].tiles;
    ChunkAtUpdate(cs, i, ChunkValue(pos, ts + [NewTile(x, y, t)]), pos');
    TypeAtAppend(ts, NewTile(x, y, t), x', y');
  }

  /** The overwriting case of `LookupElsewhere`: tile j of chunk i took type t. */
  lemma LookupElsewhereOverwritten(cs: seq<ChunkValue>, i: nat, j: nat, pos: (int, int), t: string,
                                   pos': (int, int), x': int, y': int)
    requires FindChunk(cs, pos) == Some(i) && j < |cs[i].tiles| && UniqueTiles(cs[i].tiles)
    requires pos' != pos || (x', y') != (cs[i].tiles[j].x, cs[i].tiles[j].y)
    ensures var ts := cs[i].tiles;
      Lookup(cs[i := ChunkValue(pos, ts[j := ts[j].(tileType := t)])], pos', x', y') == Lookup(cs, pos', x', y')
  {
    var ts := cs[i].tiles;
    ChunkAtUpdate(cs, i, ChunkValue(pos, ts[j := ts[j].(tileType := t)]), pos');
    TypeAtOverwrite(ts, j, t, x', y');
  }

  /** The clearing case of `LookupElsewhere`: tile j of chunk i has been cut out. */
  lemma LookupElsewhereCleared(cs: seq<ChunkValue>, i: nat, j: nat, pos: (int, int),
                               pos': (int, int), x': int, y': int)
    requires WellFormed(cs) && FindChunk(cs, pos) == Some(i) && j < |cs[i].tiles|
    requires pos' != pos || (x', y') != (cs[i].tiles[j].x, cs[i].tiles[j].y)
    ensures var ts := cs[i].tiles;
      var rest := ts[..j] + ts[j + 1..];
      var r := if rest == [] then cs[..i] + cs[i + 1..] else cs[i := ChunkValue(cs[i].position, rest)];
      Lookup(r, pos', x', y') == Lookup(cs, pos', x', y')
  {
    var ts := cs[i].tiles;
    var rest := ts[..j] + ts[j + 1..];
    if rest == [] {
      if pos' == pos {
        RemovedChunkGone(cs, i);
        assert |ts| == 1;
        assert FindTile(ts, x', y').None?;
      } else {
        ChunkAtRemove(cs, i, pos');
      }
    } else {
      ChunkAtUpdate(cs, i, ChunkValue(pos, rest), pos');
      if pos' == pos {
        TypeAtRemove(ts, j, x', y');
      }
    }
  }

  lemma SetThenClearNewChunk(cs: seq<ChunkValue>, pos: (int, int), x: int, y: int, t: string)
    requires FindChunk(cs, pos).None?
    ensures Edit(Edit(cs, pos, x, y, Some(t)), pos, x, y, None) == cs
  {
    var n := NewTile(x, y, t);
    var r := cs + [ChunkValue(pos, [n])];
    assert Edit(cs, pos, x, y, Some(t)) == r;
    assert r[|cs|].position == pos;
    assert FindChunk(r, pos) == Some(|cs|);
    assert r[|cs|].tiles == [n];
    assert FindTile([n], x, y) == Some(0);
    assert [n][..0] + [n][1..] == [];
    assert r[..|cs|] + r[|cs| + 1..] == cs;
  }

  lemma SetThenClearNewTile(cs: seq<ChunkValue>, pos: (int, int), x: int, y: int, t: string, i: nat)
    requires FindChunk(cs, pos) == Some(i) && FindTile(cs[i].tiles, x, y).None?
    requires cs[i].tiles != []
    ensures Edit(Edit(cs, pos, x, y, Some(t)), pos, x, y, None) == cs
  {
    var n := NewTile(x, y, t);
    var ts := cs[i].tiles;
    var c := ChunkValue(pos, ts + [n]);
    var r := cs[i := c];
    assert Edit(cs, pos, x, y, Some(t)) == r;
    FindChunkSamePositions(r, cs, pos);
    assert c.tiles[|ts|] == n;
    assert FindTile(c.tiles, x, y) == Some(|ts|);
    assert (ts + [n])[..|ts|] + (ts + [n])[|ts| + 1..] == ts;
    assert r[i := ChunkValue(pos, ts)] == cs;
  }

  /**
   * Setting a type and then clearing it restores a list without empty chunks, when no
   * tile was there before. (An empty chunk at that position would be removed instead.)
   */
  lemma SetThenClearRestores(cs: seq<ChunkValue>, pos: (int, int), x: int, y: int, t: string)
    requires NoEmptyChunks(cs) && Lookup(cs, pos, x, y).None?
    ensures Edit(Edit(cs, pos, x, y, Some(t)), pos, x, y, None) == cs
  {
    match FindChunk(cs, pos)
    case None => SetThenClearNewChunk(cs, pos, x, y, t);
    case Some(i) => SetThenClearNewTile(cs, pos, x, y, t, i);
  }

  /** No edit leaves an empty chunk behind in a list that had none (lines 27-28, 41). */
  lemma EditKeepsNoEmptyChunks(cs: seq<ChunkValue>, pos: (int, int), x: int, y: int, tileType: Option<string>)
    requires NoEmptyChunks(cs)
    ensures NoEmptyChunks(Edit(cs, pos, x, y, tileType))
  {
    match FindChunk(cs, pos)
    case None =>
    case Some(i) =>
      var ts := cs[i].tiles;
      match FindTile(ts, x, y)
      case None =>
      case Some(j) =>
        if tileType.None? && ts[..j] + ts[j + 1..] == [] {
          var r := cs[..i] + cs[i + 1..];
          forall k | 0 <= k < |r| ensures r[k].tiles != [] {
            if k < i { assert r[k] == cs[k]; } else { assert r[k] == cs[k + 1]; }
          }
        }
  }

  lemma WellFormedAppendChunk(cs: seq<ChunkValue>, c: ChunkValue)
    requires WellFormed(cs) && FindChunk(cs, c.position).None?
    requires c.tiles != [] && UniqueTiles(c.tiles)
    ensures WellFormed(cs + [c])
  {
    var r := cs + [c];
    assert forall k :: 0 <= k < |cs| ==> r[k] == cs[k];
  }

  lemma WellFormedUpdateChunk(cs: seq<ChunkValue>, i: nat, c: ChunkValue)
    requires WellFormed(cs) && i < |cs| && c.position == cs[i].position
    requires c.tiles != [] && UniqueTiles(c.tiles)
    ensures WellFormed(cs[i := c])
  {
  }

  lemma WellFormedRemoveChunk(cs: seq<ChunkValue>, i: nat)
    requires WellFormed(cs) && i < |cs|
    ensures WellFormed(cs[..i] + cs[i + 1..])
  {
    var r := cs[..i] + cs[i + 1..];
    assert forall k :: 0 <= k < |r| ==> r[k] == cs[if k < i then k else k + 1];
  }

  lemma UniqueTilesRemove(ts: seq<TileValue>, j: nat)
    requires UniqueTiles(ts) && j < |ts|
    ensures UniqueTiles(ts[..j] + ts[j + 1..])
  {
    var rest := ts[..j] + ts[j + 1..];
    forall a, b | 0 <= a < b < |rest| ensures !(rest[a].x == rest[b].x && rest[a].y == rest[b].y) {
      var a' := if a < j then a else a + 1;
      var b' := if b < j then b else b + 1;
      assert rest[a] == ts[a'] && rest[b] == ts[b'];
    }
  }

  lemma UniqueTilesAppend(ts: seq<TileValue>, t: TileValue)
    requires UniqueTiles(ts) && FindTile(ts, t.x, t.y).None?
    ensures UniqueTiles(ts + [t])
  {
    var ts' := ts + [t];
    assert forall a :: 0 <= a < |ts| ==> ts'[a] == ts[a];
  }

  /** Edits keep a well-formed list well formed: one chunk per position, one tile per cell. */
  lemma EditKeepsWellFormed(cs: seq<ChunkValue>, pos: (int, int), x: int, y: int, tileType: Option<string>)
    requires WellFormed(cs)
    ensures WellFormed(Edit(cs, pos, x, y, tileType))
  {
    match FindChunk(cs, pos)
    case None =>
      if tileType.Some? {
        WellFormedAppendChunk(cs, ChunkValue(pos, [NewTile(x, y, tileType.value)]));
      }
    case Some(i) =>
      var ts := cs[i].tiles;
      match FindTile(ts, x, y)
      case None =>
        if tileType.Some? {
          UniqueTilesAppend(ts, NewTile(x, y, tileType.value));
          WellFormedUpdateChunk(cs, i, ChunkValue(pos, ts + [NewTile(x, y, tileType.value)]));
        }
      case Some(j) =>
        if tileType.None? {
          var rest := ts[..j] + ts[j + 1..];
          if rest == [] {
            WellFormedRemoveChunk(cs, i);
          } else {
            UniqueTilesRemove(ts, j);
            WellFormedUpdateChunk(cs, i, ChunkValue(pos, rest));
          }
        } else {
          var ts' := ts[j := ts[j].(tileType := tileType.value)];
          assert forall a :: 0 <= a < |ts| ==> ts'[a].x == ts[a].x && ts'[a].y == ts[a].y;
          WellFormedUpdateChunk(cs, i, ChunkValue(pos, ts'));
        }
  }

  /** Clearing an existing tile removes one tile, adding a new one adds one, overwriting none. */
  lemma EditTileCount(cs: seq<ChunkValue>, pos: (int, int), x: int, y: int, tileType: Option<string>)
    ensures var present := Lookup(cs, pos, x, y).Some?;
      TileCount(Edit(cs, pos, x, y, tileType)) ==
        if tileType.None? && present then TileCount(cs) - 1
        else if tileType.Some? && !present then TileCount(cs) + 1
        else TileCount(cs)
  {
    match FindChunk(cs, pos)
    case None =>
      if tileType.Some? {
        TileCountAppend(cs, [ChunkValue(pos, [NewTile(x, y, tileType.value)])]);
        assert TileCount([ChunkValue(pos, [NewTile(x, y, tileType.value)])]) == 1;
      }
    case Some(i) =>
      var ts := cs[i].tiles;
      TileCountAround(cs, i);
      match FindTile(ts, x, y)
      case None =>
        if tileType.Some? {
          var c := ChunkValue(pos, ts + [NewTile(x, y, tileType.value)]);
          TileCountAround(cs[i := c], i);
          assert cs[i := c][..i] == cs[..i] && cs[i := c][i + 1..] == cs[i + 1..];
        }
      case Some(j) =>
        var rest := ts[..j] + ts[j + 1..];
        if tileType.None? {
          if rest == [] {
            TileCountAppend(cs[..i], cs[i + 1..]);
          } else {
            TileCountAround(cs[i := ChunkValue(pos, rest)], i);
            assert cs[i := ChunkValue(pos, rest)][..i] == cs[..i];
            assert cs[i := ChunkValue(pos, rest)][i + 1..] == cs[i + 1..];
          }
        } else {
          var c := ChunkValue(pos, ts[j := ts[j].(tileType := tileType.value)]);
          TileCountAround(cs[i := c], i);
          assert cs[i := c][..i] == cs[..i] && cs[i := c][i + 1..] == cs[i + 1..];
        }
  }
}

=== FILE: tile.dfy ===
/** The tile record of src/common/world/tile.py. */
module Tiles {
  import opened Wrappers

  /** The state of one tile object at one moment. */
  datatype TileValue = TileValue(x: int, y: int, tileType: string, blockState: map<string, string>)

  /** A tile; `set_tile` overwrites `tileType` in place, so a tile is an object. */
  class Tile {
    var x: int
    var y: int
    var tileType: string
    var blockState: map<string, string>

    /** Stores every field as given; an absent block state becomes an empty mapping. */
    constructor (x: int, y: int, tileType: string, blockState: Option<map<string, string>>)
      ensures this.x == x && this.y == y && this.tileType == tileType
      ensures blockState.None? ==> this.blockState == map[]
      ensures blockState.Some? ==> this.blockState == blockState.value
    {
      this.x := x;
      this.y := y;
      this.tileType := tileType;
      this.blockState := if blockState.Some? then blockState.value else map[];
    }

    function Value(): (r: TileValue)
      reads this
    {
      TileValue(x, y, tileType, blockState)
    }
  }

  /** The states of a sequence of tile objects, position by position. */
  ghost function Values(ts: seq<Tile>): (r: seq<TileValue>)
    reads ts
    ensures |r| == |ts|
    ensures forall j :: 0 <= j < |ts| ==> r[j] == ts[j].Value()
  {
    seq(|ts|, j requires 0 <= j < |ts| reads ts => ts[j].Value())
  }
}

=== FILE: values.dfy ===
/**
 * Dynamically typed arguments whose run-time type the source checks with
 * `isinstance`. Only the distinctions that change behaviour are kept.
 */
module Values {

  /** A Python number as it arrives at a validating constructor or setter. */
  datatype Number =
    | IntValue(i: int)
    | FloatValue(f: real)
    | NonNumeric

  /** The numeric value of an int or a float (an int converts exactly). */
  function NumericValue(n: Number): (r: real)
    requires !n.NonNumeric?
    ensures n.IntValue? ==> r == n.i as real
    ensures n.FloatValue? ==> r == n.f
  {
    match n
    case IntValue(i) => i as real
    case FloatValue(f) => f
  }

  /** A position argument: a tuple, a list, or something else entirely. */
  datatype PositionArg =
    | TupleArg(items: seq<real>)
    | ListArg(items: seq<real>)
    | OtherArg
}

=== FILE: world.dfy ===
/** The keyed chunk store of src/common/world/world.py. */
module Worlds {
  import opened Wrappers
  import opened Chunks

  /** The map after `add_chunk(id, c)`: a new id is inserted, a present id keeps its first chunk. */
  function Added<V>(m: map<string, V>, id: string, c: V): (r: map<string, V>)
    ensures r.Keys == m.Keys + {id}
    ensures forall k :: k in m ==> r[k] == m[k]
    ensures id !in m ==> r[id] == c
  {
    if id in m then m else m[id := c]
  }

  /** The map after `remove_chunk(id)`: the id is gone, every other entry is kept. */
  function Removed<V>(m: map<string, V>, id: string): (r: map<string, V>)
    ensures r.Keys == m.Keys - {id}
    ensures forall k :: k in r ==> r[k] == m[k]
  {
    m - {id}
  }

  /** `dict.get(id)`: the stored value, or nothing. */
  function Get<V>(m: map<string, V>, id: string): (r: Option<V>)
    ensures r.Some? <==> id in m
    ensures r.Some? ==> r.value == m[id]
  {
    if id in m then Some(m[id]) else None
  }

  /** The first writer wins: a second `add_chunk` under the same id changes nothing. */
  lemma AddFirstWriterWins<V>(m: map<string, V>, id: string, c: V, d: V)
    ensures Added(Added(m, id, c), id, d) == Added(m, id, c)
    ensures Get(Added(Added(m, id, c), id, d), id) == Get(Added(m, id, c), id)
  {
  }

  /** Reading back what was added: the new chunk for a new id, the old one otherwise. */
  lemma GetAfterAdd<V>(m: map<string, V>, id: string, c: V, other: string)
    ensures Get(Added(m, id, c), id) == Some(if id in m then m[id] else c)
    ensures other != id ==> Get(Added(m, id, c), other) == Get(m, other)
  {
  }

  /** Removal is idempotent, and removed ids read back as absent. */
  lemma RemoveIdempotent<V>(m: map<string, V>, id: string)
    ensures Removed(Removed(m, id), id) == Removed(m, id)
    ensures Get(Removed(m, id), id).None?
  {
  }

  /** Adding a fresh id and removing it again restores the map. */
  lemma RemoveUndoesAdd<V>(m: map<string, V>, id: string, c: V)
    requires id !in m
    ensures Removed(Added(m, id, c), id) == m
  {
  }

  class World {
    var chunks: map<string, Chunk>
    var spawnLocation: (int, int)

    /** `World(chunks, spawn_location)`: a missing chunk map becomes empty. */
    constructor (chunks: Option<map<string, Chunk>>, spawnLocation: (int, int))
      ensures chunks.None? ==> this.chunks == map[]
      ensures chunks.Some? ==> this.chunks == chunks.value
      ensures this.spawnLocation == spawnLocation
    {
      this.chunks := if chunks.Some? then chunks.value else map[];
      this.spawnLocation := spawnLocation;
    }

    /** `World()`: an empty chunk map and spawn location (0, 0). */
    constructor Default()
      ensures chunks == map[] && spawnLocation == (0, 0)
    {
      chunks := map[];
      spawnLocation := (0, 0);
    }

    /** `add_chunk`: inserts only under an id not yet present; the id is not checked against the chunk. */
    method AddChunk(id: string, chunk: Chunk)
      modifies this`chunks
      ensures chunks == Added(old(chunks), id, chunk)
    {
      if id !in chunks {
        chunks := chunks[id := chunk];
      }
    }

    /** `get_chunk`: the stored chunk or nothing, without changing the world. */
    function GetChunk(id: string): (r: Option<Chunk>)
      reads this
      ensures r == Get(chunks, id)
    {
      if id in chunks then Some(chunks[id]) else None
    }

    /** `remove_chunk`: deletes the id when present, else does nothing. */
    method RemoveChunk(id: string)
      modifies this`chunks
      ensures chunks == Removed(old(chunks), id)
    {
      if id in chunks {
        chunks := map k | k in chunks && k != id :: chunks[k];
      }
    }
  }
}

=== FILE: wrappers.dfy ===
/** Failure-carrying result types used in place of the source's exceptions. */
module Wrappers {

  datatype Option<+T> = None | Some(value: T)

  /** The value a constructor or factory produced, or the error it raised. */
  datatype Result<+T, +E> = Success(value: T) | Failure(error: E)

  /** The outcome of a mutator that returns nothing on success. */
  datatype Outcome<+E> = Pass | Fail(error: E)
}
